=== FILE: README.md ===
# StreamPay subscription escrow and Story Protocol hooks, in Dafny

This project models two parts of StreamPay.

**The `SubscriptionEscrow` contract** (a Stylus contract).
- Registered providers publish subscription plans. Each plan has a provider, a price and a payment interval.
- Users subscribe and pay renewals from a per-user escrow balance. The provider is paid the price less a protocol fee of 250 basis points.
- An admin, installed by `initialize`, can credit royalty balances to IP assets.
- Plans can be linked to IP assets with a metadata URI.
- Licence holders and content IP per subscription are recorded.

**The client-side hooks** that drive the Story Protocol workflow.
- `useStoryProtocol.initialize` starts the session.
- Registration, licence attachment, licence minting and derivative registration are each a busy flag plus an error slot.
- Royalty collection keeps the displayed figures `totalEarned`, `claimable` and `claimed`.

Modules:
- `Word` (`word.dfy`): U256, address and u64 words. `+`, `-` and `*` wrap modulo 2^256. Also the fee arithmetic `price * fee_bps / 10000`.
- `Storage` (`storage.dfy`): storage mappings as canonical Dafny maps. An unwritten slot reads as the zero value, and writing zero clears the key, so map equality is storage equality.
- `Escrow` (`escrow.dfy`): the contract state and every public method. The getters `get_user_balance`, `is_provider_registered` (smart-contract/lib.rs:257-264), `get_plan_ip_asset`, `get_plan_metadata_uri`, `get_ip_royalty_balance` and `has_ip_license` (smart-contract/lib.rs:454-471) are the plain reads `GetUserBalance`, `IsProviderRegistered`, `GetPlanIpAsset`, `GetPlanMetadataUri`, `GetIpRoyaltyBalance` and `HasIpLicense`. They appear in the contracts of the operations that write those slots. Each method is a pure function `State × Ctx → Outcome`. `Ctx` holds the sender, the attached value, the block timestamp, and whether the one outbound ETH transfer succeeds. An `Err` outcome carries the storage exactly as the method body left it. `Commit` applies EVM revert semantics: a failing call leaves storage unchanged.
- `Marketplace` (`marketplace.dfy`): the bounded `get_plans` scan, written as a loop and checked against a reference listing.
- `EscrowMachine` (`escrow_machine.dfy`): transactions, runs from deployment, and the plan and subscription table invariants. Only `subscribe` and `deposit` are `#[payable]` (smart-contract/lib.rs:142, 284). A call to any other method that carries value is reverted by the Stylus SDK's router before the method body runs, so `Apply` leaves storage unchanged for it.
- `Decimal` (`decimal.dfy`): `BigInt(string)` and `toString()` on the decimal strings the royalty hook stores.
- `StoryHooks` (`story_hooks.dfy`): the hook state machines. Each action yields three things: the state while the service call is pending, the state afterwards, and its return value.

## Model

| member | source | states |
|---|---|---|
| Word.FeeWithinPrice | smart-contract/lib.rs:164-165 | For any fee of at most 10000 bps, the fee never exceeds the price, even when `price * fee` wraps. So `price - fee` never underflows, and the provider's share plus the fee equals the price. |
| Word.FeeExact | smart-contract/lib.rs:231-232 | When `price * fee_bps` fits in 256 bits, the fee is exactly `floor(price * fee_bps / 10000)`. |
| Word.FeeExample | smart-contract/lib.rs:87 | At the installed 250 bps, a price of 10000 gives a fee of 250 and a provider share of 9750. |
| Storage.PutRestores | smart-contract/lib.rs:316-321 | Writing a slot and then writing back the value it held leaves the mapping exactly as it was. This is the contract's restore-after-failed-transfer pattern. |
| Escrow.Initialize | smart-contract/lib.rs:78-90 | Succeeds exactly when admin is the zero address. It then sets admin to the caller, both id counters to 1 and the fee to 250, and nothing else. Otherwise it fails with `InvalidInput` and writes nothing. |
| Escrow.RegisterProvider | smart-contract/lib.rs:92-114 | Fails with `InvalidInput` if the name is longer than 100 bytes or the caller is already registered. Otherwise exactly the caller becomes registered and a `ProviderRegistered` event is emitted. |
| Escrow.RequireRegisteredProvider | smart-contract/lib.rs:333-338 | Passes exactly for a registered provider and fails with `Unauthorized` otherwise. |
| Escrow.CreatePlan | smart-contract/lib.rs:116-140 | Succeeds exactly when the caller is a registered provider and both price and interval are non-zero. Unregistered caller: `Unauthorized`. Registered caller with zero price or interval: `InvalidInput`. Errors change nothing. On success it returns the old `next_plan_id` and advances the counter by one. Only that id's provider, price and interval are written. |
| Escrow.Subscribe | smart-contract/lib.rs:142-204 | Succeeds exactly when the plan has a provider, the credited balance covers the price and the transfer succeeds. No provider: `NotFound`, with no writes. Credited balance below the price: `InsufficientFunds`. Failed transfer: `InvalidInput`, with the balance restored to old + value and the counter not advanced. On success the balance becomes old + value − price, the old counter value becomes an active subscription with `last_payment` = now, the counter advances, and other users and subscriptions are untouched. |
| Escrow.OpenSubscription | smart-contract/lib.rs:164-203 | Once the balance covers the price: a failed transfer returns `InvalidInput` with the balance as before and the counter not advanced. On success the new id is the old counter, its record is an active subscription from now, and only the caller's balance drops, by exactly the price. |
| Escrow.ProcessSubscriptionPayment | smart-contract/lib.rs:208-257 | Inactive subscription or renewal not yet due: `InvalidInput`, with no writes. Balance below the price: the subscription is deactivated and `InsufficientFunds` is returned. Failed transfer: balance and `last_payment` are both restored, so storage is unchanged. On success exactly the price is debited from the subscriber and `last_payment` becomes now. |
| Escrow.ChargeRenewal | smart-contract/lib.rs:231-256 | The charging half of a due renewal. A failed transfer writes back both the balance and `last_payment`, leaving storage exactly as it was. On success exactly the price is debited and `last_payment` becomes now. |
| Escrow.Deposit | smart-contract/lib.rs:283-305 | A zero value fails with `InvalidInput`. Otherwise only the caller's balance changes, and it grows by the value. |
| Escrow.Withdraw | smart-contract/lib.rs:307-331 | Succeeds exactly when 0 < amount ≤ balance and the transfer succeeds. An amount of 0, or more than the balance: `InsufficientFunds`. A failed transfer restores the balance, leaving storage unchanged. On success only the caller's balance changes, and it drops by the amount. |
| Escrow.RegisterPlanIpAsset | smart-contract/lib.rs:342-367 | Succeeds exactly when the caller is the plan's provider and the asset is non-zero. Only the plan's provider may call it (else `Unauthorized`), and only with a non-zero asset (else `InvalidInput`). It then sets exactly that plan's asset and metadata URI. |
| Escrow.RecordLicenseAttachment | smart-contract/lib.rs:369-381 | Rejects the zero asset with `InvalidInput`. It never changes storage and only emits an event. |
| Escrow.RecordLicenseMint | smart-contract/lib.rs:383-398 | Rejects a zero asset or licensee with `InvalidInput`. Otherwise exactly the licensee is added to the licence holders. |
| Escrow.DistributeIpRoyalty | smart-contract/lib.rs:400-425 | Succeeds exactly when the caller is the admin and both amount and recipient are non-zero. Only the admin may call it (else `Unauthorized`). A zero amount or zero recipient gives `InvalidInput`. Otherwise exactly that asset's royalty balance grows by the amount. |
| Escrow.RegisterContentIp | smart-contract/lib.rs:427-451 | Succeeds exactly when the caller is the subscription's subscriber and the subscription is active. Only the subscription's subscriber may call it (else `Unauthorized`), and only while the subscription is active (else `InvalidInput`). It then sets exactly that subscription's content IP. |
| Marketplace.GetPlans | smart-contract/lib.rs:267-281 | Returns the first min(10, n) ids of the reference listing, strictly increasing, each in [1, `next_plan_id`) with a provider. On a dense plan table the result is exactly 1 .. min(`next_plan_id` − 1, 10). |
| Marketplace.ListedFacts | smart-contract/lib.rs:272-279 | The reference listing is strictly increasing. It holds only ids in range that have a provider, and it misses none of them. |
| Marketplace.ListedDenseTable | smart-contract/lib.rs:272-279 | When every id in [1, `next_plan_id`) holds a plan, the listing is exactly those ids in order. |
| Marketplace.ScanFacts | smart-contract/lib.rs:268-281 | The bounded scan returns min(10, n) ids, strictly increasing, each in [1, `next_plan_id`) with a provider. |
| Marketplace.ScanDenseTable | smart-contract/lib.rs:268-281 | On a dense plan table the bounded scan returns exactly the ids 1 .. min(`next_plan_id` − 1, 10). |
| EscrowMachine.InitializeNoRewind | smart-contract/lib.rs:78-90 | Corrected `initialize`: on a fresh contract it agrees with the original. It never moves an id counter backwards. |
| EscrowMachine.DeployedInv | smart-contract/lib.rs:44-73 | A freshly deployed contract satisfies the plan table, subscription table and fee invariants. |
| EscrowMachine.InitializePreservesInv | smart-contract/lib.rs:78-90 | The corrected `initialize` keeps the invariants. |
| EscrowMachine.CreatePlanPreservesInv | smart-contract/lib.rs:116-140 | `create_plan` from a real account, below the counter maximum, keeps the invariants. It leaves `next_subscription_id` unchanged and moves `next_plan_id` by at most one (a failed call is reverted): every used id is below `next_plan_id` with a non-zero price and interval, and every id in [1, `next_plan_id`) is used. |
| EscrowMachine.SubscribePreservesInv | smart-contract/lib.rs:142-204 | `subscribe` from a real account, below the counter maximum, keeps the invariants. It leaves `next_plan_id` unchanged and moves `next_subscription_id` by at most one (a failed call is reverted): every subscription record is below the counter, has a subscriber, and refers to an existing plan. |
| EscrowMachine.ProcessPaymentPreservesInv | smart-contract/lib.rs:208-257 | `process_subscription_payment` keeps the invariants. |
| EscrowMachine.RegisterProviderPreservesInv | smart-contract/lib.rs:92-114 | `register_provider` keeps the invariants. |
| EscrowMachine.DepositPreservesInv | smart-contract/lib.rs:283-305 | `deposit` keeps the invariants. |
| EscrowMachine.WithdrawPreservesInv | smart-contract/lib.rs:307-331 | `withdraw` keeps the invariants. |
| EscrowMachine.RegisterPlanIpAssetPreservesInv | smart-contract/lib.rs:342-367 | `register_plan_ip_asset` keeps the invariants. |
| EscrowMachine.RecordLicenseAttachmentPreservesInv | smart-contract/lib.rs:369-381 | `record_license_attachment` keeps the invariants. |
| EscrowMachine.RecordLicenseMintPreservesInv | smart-contract/lib.rs:383-398 | `record_license_mint` keeps the invariants. |
| EscrowMachine.DistributeIpRoyaltyPreservesInv | smart-contract/lib.rs:400-425 | `distribute_ip_royalty` keeps the invariants. |
| EscrowMachine.RegisterContentIpPreservesInv | smart-contract/lib.rs:427-451 | `register_content_ip` keeps the invariants. |
| EscrowMachine.ApplyPreservesInv | smart-contract/lib.rs:78-451 | With the corrected `initialize`, every public call from a real account keeps the invariants, as long as neither counter is at its maximum. Each id counter moves forward by at most one and never back, and once installed the admin never changes. |
| EscrowMachine.RunPreservesInv | smart-contract/lib.rs:78-451 | With the corrected `initialize`, any run of fewer than 2^256 − 1 transactions keeps the invariants, and the counters grow by at most the run's length. |
| EscrowMachine.ReachableListing | smart-contract/lib.rs:268-281 | With the corrected `initialize`, every state reachable from deployment satisfies the invariants. The reference listing is exactly 1 .. `next_plan_id` − 1, and `get_plans` returns 1 .. min(`next_plan_id` − 1, 10). |
| EscrowMachine.CreatePlanKeepsDense | smart-contract/lib.rs:116-140 | `create_plan` from a real account keeps every id in [1, `next_plan_id`) filled with a plan that has a provider, a non-zero price and a non-zero interval. `next_plan_id` grows by at most one. |
| EscrowMachine.ApplyAsWrittenKeepsDense | smart-contract/lib.rs:78-451 | With the original `initialize`, every call from a real account keeps [1, `next_plan_id`) filled. `next_plan_id` grows by at most one, although `initialize` may move it down to 1. |
| EscrowMachine.RunAsWrittenKeepsDense | smart-contract/lib.rs:78-451 | Any run of the contract as written keeps [1, `next_plan_id`) filled, and `next_plan_id` grows by at most the run's length. |
| EscrowMachine.ReachableListingAsWritten | smart-contract/lib.rs:268-281 | For the contract as written, in every state reachable from deployment the listing is exactly 1 .. `next_plan_id` − 1, and `get_plans` returns 1 .. min(`next_plan_id` − 1, 10). A rewound counter makes `create_plan` overwrite plans but never leaves a gap. |
| EscrowMachine.CreatePlanUsesFreshId | smart-contract/lib.rs:124-128 | Under the invariant, `create_plan` always writes an id that held no plan. |
| EscrowMachine.SubscribeSplitsPrice | smart-contract/lib.rs:164-201 | A successful subscription emits three events. The `PaymentProcessed` amount paid to the provider plus the protocol fee equals the plan price. |
| EscrowMachine.RenewalSplitsPrice | smart-contract/lib.rs:231-254 | The same split holds for a renewal paid to the plan's provider. |
| EscrowMachine.DepositThenWithdraw | smart-contract/lib.rs:285-331 | `deposit(x)` followed by a successful `withdraw(x)` restores the caller's balance and the whole storage. |
| EscrowMachine.SubscribeRestoreIsPartial | smart-contract/lib.rs:170-180 | After a failed transfer, the body of `subscribe` restores only the balance. An active subscription record is left at the uncounted id, and only the revert removes it. |
| EscrowMachine.InitializeOnce | smart-contract/lib.rs:78-90 | After an account has initialised the contract, a second `initialize` fails with `InvalidInput`. |
| EscrowMachine.InitializeRewindsPlanIds | smart-contract/lib.rs:78-90 | As written, `initialize` after two plans exist rewinds `next_plan_id`. The plan invariant is broken, and the next `create_plan` overwrites plan 1. |
| EscrowMachine.InitializeNoRewindKeepsPlanIds | smart-contract/lib.rs:78-90 | With the corrected `initialize`, the same sequence keeps plan 1 and gives the new plan id 2. |
| Decimal.ToDecimal | src/hooks/useStoryProtocol.ts:243 | `toString()` of a non-negative integer is a canonical numeral. |
| Decimal.ParseToDecimal | src/hooks/useStoryProtocol.ts:243 | `BigInt(n.toString()) == n`. |
| Decimal.ToDecimalParse | src/hooks/useStoryProtocol.ts:243 | `BigInt(s).toString() == s` for every canonical numeral `s`. |
| Decimal.DecimalExamples | src/hooks/useStoryProtocol.ts:243 | 0, 5 and 120 are written "0", "5" and "120". |
| StoryHooks.Initialize | src/hooks/useStoryProtocol.ts:42-55 | A no-op exactly when the wallet client or address is missing, or the session is already initialised or initialising. Otherwise `isInitializing` is true while pending and false afterwards. `isInitialized` then holds exactly when the service answered true (a throw gives false). |
| StoryHooks.InitializeSettles | src/hooks/useStoryProtocol.ts:42-55 | The session never stays initialising. `isInitialized` is never reset, so once a call succeeds every later call is a no-op, whatever wallet client and address it sees. |
| StoryHooks.InitializeFromStart | src/hooks/useStoryProtocol.ts:42-55 | The first `initialize` of a fresh session with a wallet client and an address is pending as initialising. It ends with the session initialised exactly when the service answered true. |
| StoryHooks.RunAction | src/hooks/useStoryProtocol.ts:86-103 | While pending: busy, with the error cleared. Afterwards busy is false on every path. A non-null result is returned unchanged with no error. A null result returns null with the fixed failure message. A throw stores the thrown message, or "Unknown error". |
| StoryHooks.RegisterPlan | src/hooks/useStoryProtocol.ts:75-106 | `registerPlan` follows that shape with the message "Failed to register IP asset". |
| StoryHooks.AttachLicense | src/hooks/useStoryProtocol.ts:122-141 | `attachLicense` follows that shape with the message "Failed to attach license terms". |
| StoryHooks.MintLicense | src/hooks/useStoryProtocol.ts:143-162 | `mintLicense` follows that shape with the message "Failed to mint license". |
| StoryHooks.RegisterDerivative | src/hooks/useStoryProtocol.ts:179-205 | `registerDerivative` follows that shape with the message "Failed to register derivative". |
| StoryHooks.ActionForgetsPreviousError | src/hooks/useStoryProtocol.ts:86-87 | An action's outcome depends only on the service answer, not on the state it started from. An action that returns a result leaves the hook idle: not busy, no error. |
| StoryHooks.CollectRoyalties | src/hooks/useStoryProtocol.ts:226-255 | With no ipId nothing changes and null is returned. On success, `claimed` reads as the old value plus `amountsClaimed[0]`, `claimable` becomes "0" and the error is cleared. `totalEarned` never changes. A null answer or a throw leaves the figures alone and stores a message. Busy is cleared on every exit. |
| StoryHooks.CollectKeepsNumerals | src/hooks/useStoryProtocol.ts:218-245 | The three royalty figures stay canonical decimal numerals through every collection. |
| StoryHooks.CollectFromInitial | src/hooks/useStoryProtocol.ts:218-245 | Starting from {"0","0","0"} and collecting [5] gives claimed "5" and claimable "0". |
| StoryHooks.CollectAllAccumulates | src/hooks/useStoryProtocol.ts:226-255 | Over any series of collections for one ipId, `claimed` grows by exactly the first amounts of the successful claims. `totalEarned` never changes, and the hook ends idle. |

## Findings

| source | as written | input that shows it | evidently intended | confidence | as-written member | corrected member |
|---|---|---|---|---|---|---|
| smart-contract/lib.rs:78-90 | `initialize` sets `next_plan_id` and `next_subscription_id` to 1 whatever they held. `create_plan` and `subscribe` do not require the contract to be initialised. | On a fresh contract, account 1 registers and creates two plans (ids 0 and 1). Account 2 calls `initialize`. Account 1's next `create_plan` returns id 1 and overwrites that plan's provider, price and interval. | Plan and subscription ids are never reused: `initialize` starts the counters only if they are still 0. | medium, not executed | Escrow.Initialize, EscrowMachine.InitializeRewindsPlanIds | EscrowMachine.InitializeNoRewind, EscrowMachine.ApplyPreservesInv |

The transaction system `EscrowMachine.Apply` uses the corrected `initialize`. All other calls are modelled as written. `EscrowMachine.ApplyAsWritten` keeps the original `initialize`, and the listing result is proved for it as well.

Two behaviours of the hooks worth noting:
- `mintLicense` (src/hooks/useStoryProtocol.ts:143-162) does not check the mint amount, and `registerDerivative` (src/hooks/useStoryProtocol.ts:179-205) does not check that the parent id and licence terms id lists have the same length. The service (src/services/storyProtocolService.ts:175-233) forwards both unchecked. The model has no such checks.
- `collectRoyalties` never writes `totalEarned` (src/hooks/useStoryProtocol.ts:241-245). So `totalEarned = claimable + claimed` stops holding after the first claim: `StoryHooks.CollectFromInitial` ends in {"0","0","5"}.

## Left out

- `StoryHooks.CollectRoyalties` and `StoryHooks.CollectAll`: royalty amounts are taken as non-negative (`nat`), as on-chain token amounts are. The source's `bigint[]` type would admit negative values.
- `StoryHooks.CollectRoyalties`: requires `claimed` to be a digit string and a successful answer to carry at least one amount. The source indexes `amountsClaimed[0]` and calls `BigInt(prev.claimed)` inside a React state updater. If either fails, where the exception surfaces depends on React's scheduling, not on the hook. Both hold for the state the hook builds (`CollectKeepsNumerals`), and for the service, which always answers `[0]`.
- `EscrowMachine.ApplyPreservesInv`, `EscrowMachine.RunPreservesInv`, `EscrowMachine.ReachableListing`, `EscrowMachine.CreatePlanPreservesInv` and `EscrowMachine.SubscribePreservesInv`: assume every sender is a real account (never the zero address). They also assume neither counter reaches 2^256 − 1, where the U256 increment would wrap to 0.
- `EscrowMachine.CreatePlanKeepsDense`, `EscrowMachine.ApplyAsWrittenKeepsDense`, `EscrowMachine.RunAsWrittenKeepsDense` and `EscrowMachine.ReachableListingAsWritten`: make the same two assumptions, for `next_plan_id` only.
- Revert semantics: each method's literal storage writes are modelled as the `Err` state. The transaction's effect is `Commit`, which discards them. On chain, the deactivation at line 227 is therefore reverted, along with the subscription record a failed `subscribe` transfer leaves behind.
- U256 arithmetic is modelled as wrapping modulo 2^256, ruint's operator semantics in a release build. A debug-build panic on overflow is not modelled. Exact-delta statements are written with the wrapping `Add`.
- The value check for non-payable methods belongs to the Stylus SDK's generated router, not to this source file. It is modelled as that router's documented behaviour: the call reverts.
- `msg_sender`, `msg_value`, `block_timestamp` and `transfer_eth` are context inputs. Transfer success is an arbitrary boolean. Re-entrancy through the callee of `transfer_eth`, gas, and the contract's own ETH balance (where the retained fee ends up) are not modelled.
- Events are modelled as the list a successful call returns. Failing calls emit none, since they revert.
- Provider names are modelled as their UTF-8 bytes. Only their length matters.
- Hook arguments the hooks only forward (plan id and details, ipId, custom terms, mint amount, parent ids and licence terms ids, snapshot id) are not modelled. The service answer stands for the reply to them.
- src/services/storyProtocolService.ts is treated only as the oracle behind the hooks. That covers the SDK calls, the metadata upload, the placeholder hash and the stubbed `collectRoyalties`, `getIPAsset` and `hasValidLicense`.
- `useIPAsset.fetchIPAsset` and `useHasLicense.checkLicense` are not part of this model. Both only wrap service stubs.
- React scheduling, effects, unmounting and concurrency between invocations are not modelled. Each action runs to completion on its own.
- The UI pages and components, configuration tables and type declarations have no behaviour to model.

=== FILE: decimal.dfy ===
/** Decimal numerals as the royalty figures hold them: `BigInt(s)` reads a
    string of decimal digits, and `n.toString()` writes the canonical numeral
    of a non-negative integer. */
module Decimal {

  predicate IsDigit(c: char)
  {
    '0' <= c <= '9'
  }

  predicate IsDigits(s: string)
  {
    forall i :: 0 <= i < |s| ==> IsDigit(s[i])
  }

  /** A canonical numeral: non-empty digits with no leading zero except "0" itself. */
  predicate IsNumeral(s: string)
  {
    |s| > 0 && IsDigits(s) && (s[0] == '0' ==> |s| == 1)
  }

  function DigitChar(d: nat): (c: char)
    requires d < 10
    ensures IsDigit(c)
  {
    ('0' as int + d) as char
  }

  function DigitValue(c: char): (d: nat)
    requires IsDigit(c)
    ensures d < 10
  {
    c as int - '0' as int
  }

  /** `BigInt(s)` for a string of decimal digits; the empty string reads 0. */
  function ParseDigits(s: string): (n: nat)
    requires IsDigits(s)
    decreases |s|
  {
    if |s| == 0 then 0 else 10 * ParseDigits(s[..|s| - 1]) + DigitValue(s[|s| - 1])
  }

  /** `n.toString()`. */
  function ToDecimal(n: nat): (s: string)
    ensures IsNumeral(s)
    ensures n >= 10 ==> |s| >= 2
    decreases n
  {
    if n < 10 then [DigitChar(n)] else ToDecimal(n / 10) + [DigitChar(n % 10)]
  }

  /** Reading back a written numeral gives the number. */
  lemma {:induction false} ParseToDecimal(n: nat)
    ensures ParseDigits(ToDecimal(n)) == n
    decreases n
  {
    if n >= 10 {
      var s := ToDecimal(n);
      assert s[..|s| - 1] == ToDecimal(n / 10);
      ParseToDecimal(n / 10);
    }
  }

  /** A numeral with a non-zero leading digit reads as a positive number. */
  lemma {:induction false} LeadingDigitPositive(s: string)
    requires IsDigits(s) && |s| > 0 && s[0] != '0'
    ensures ParseDigits(s) >= 1
    decreases |s|
  {
    if |s| > 1 {
      LeadingDigitPositive(s[..|s| - 1]);
    }
  }

  /** Writing back a read canonical numeral gives the same string. */
  lemma {:induction false} ToDecimalParse(s: string)
    requires IsNumeral(s)
    ensures ToDecimal(ParseDigits(s)) == s
    decreases |s|
  {
    if |s| > 1 {
      var p := s[..|s| - 1];
      var d := DigitValue(s[|s| - 1]);
      LeadingDigitPositive(p);
      ToDecimalParse(p);
      var n := ParseDigits(s);
      assert n == 10 * ParseDigits(p) + d;
      assert n / 10 == ParseDigits(p) && n % 10 == d;
      assert DigitChar(d) == s[|s| - 1];
      assert s == p + [s[|s| - 1]];
    }
  }

  lemma DecimalExamples()
    ensures ToDecimal(0) == "0"
    ensures ToDecimal(5) == "5"
    ensures ToDecimal(120) == "120"
  {
  }
}

=== FILE: escrow.dfy ===
/** The SubscriptionEscrow contract: registered providers publish plans
    (price, interval), users subscribe and pay from a per-user escrow
    balance, and the plans can be linked to IP assets that accrue royalty
    balances and licence holders.

    Every public method is a pure function from the storage `State` and the
    call context `Ctx` to an `Outcome`. An `Err` outcome carries the storage
    as the method body left it when it returned the error (the literal
    writes, including the explicit restores on a failed ETH transfer);
    `Commit` gives the transaction's effect once the EVM has reverted a
    failing call. */
module Escrow {
  import opened Word
  import opened Storage

  type Byte = b: nat | b < 256

  /** Longest provider name `register_provider` accepts, in bytes. */
  const MAX_NAME_LENGTH: nat := 100

  datatype Error = Unauthorized | InvalidInput | InsufficientFunds | NotFound

  datatype Event =
    | ProviderRegistered(provider: Address, name: seq<Byte>)
    | PlanCreated(planId: U256, provider: Address, price: U256, interval: U256)
    | SubscriptionCreated(subscriptionId: U256, user: Address, planId: U256)
    | PaymentProcessed(from: Address, to: Address, amount: U256, subscriptionId: U256)
    | ProviderEarnings(provider: Address, planId: U256, amount: U256)
    | EscrowDeposit(user: Address, amount: U256, newBalance: U256)
    | EscrowWithdrawal(user: Address, amount: U256, newBalance: U256)
    | IPAssetRegistered(planId: U256, ipAsset: Address, metadataUri: string)
    | IPLicenseAttached(ipAsset: Address, licenseTermsId: U256)
    | IPLicenseMinted(ipAsset: Address, licensee: Address, tokenId: U256)
    | IPRoyaltyPaid(ipAsset: Address, recipient: Address, amount: U256)
    | ContentIPRegistered(subscriptionId: U256, contentCreator: Address, ipAsset: Address)

  /** What a call sees of its environment: the sender, the attached value,
      the block timestamp, and whether the one outbound ETH transfer the
      method may attempt succeeds. */
  datatype Ctx = Ctx(sender: Address, value: U256, timestamp: U64, transferSucceeds: bool)

  datatype State = State(
    admin: Address,
    protocolFeePercentage: U256,
    nextPlanId: U256,
    nextSubscriptionId: U256,
    registeredProviders: map<Address, bool>,
    planProvider: map<U256, Address>,
    planPrice: map<U256, U256>,
    planInterval: map<U256, U256>,
    subscriptionPlanId: map<U256, U256>,
    subscriptionSubscriber: map<U256, Address>,
    subscriptionLastPayment: map<U256, U256>,
    subscriptionActive: map<U256, bool>,
    userEscrowBalance: map<Address, U256>,
    planIpAsset: map<U256, Address>,
    planMetadataUri: map<U256, string>,
    ipAssetRoyaltyBalance: map<Address, U256>,
    subscriptionContentIp: map<U256, Address>,
    ipLicenseHolders: map<Address, bool>)

  datatype Outcome<T> =
    | Ok(state: State, value: T, events: seq<Event>)
    | Err(state: State, error: Error)

  /** The storage after the transaction: a failing call is reverted. */
  function Commit<T>(s: State, o: Outcome<T>): (s': State)
    ensures o.Ok? ==> s' == o.state
    ensures o.Err? ==> s' == s
  {
    if o.Ok? then o.state else s
  }

  /** A freshly deployed contract: every slot reads zero. */
  function Deployed(): State
  {
    State(ZERO_ADDRESS, 0, 0, 0, map[], map[], map[], map[], map[], map[], map[], map[],
          map[], map[], map[], map[], map[], map[])
  }

  /** Every mapping of the state is canonical (holds no default value). */
  ghost predicate CanonicalState(s: State)
  {
    && Canonical(s.registeredProviders, false)
    && Canonical(s.planProvider, ZERO_ADDRESS)
    && Canonical(s.planPrice, 0)
    && Canonical(s.planInterval, 0)
    && Canonical(s.subscriptionPlanId, 0)
    && Canonical(s.subscriptionSubscriber, ZERO_ADDRESS)
    && Canonical(s.subscriptionLastPayment, 0)
    && Canonical(s.subscriptionActive, false)
    && Canonical(s.userEscrowBalance, 0)
    && Canonical(s.planIpAsset, ZERO_ADDRESS)
    && Canonical(s.planMetadataUri, "")
    && Canonical(s.ipAssetRoyaltyBalance, 0)
    && Canonical(s.subscriptionContentIp, ZERO_ADDRESS)
    && Canonical(s.ipLicenseHolders, false)
  }

  // ---------------------------------------------------------------------
  // Views of the storage and the public getters

  datatype Plan = Plan(provider: Address, price: U256, interval: U256)

  datatype Subscription = Subscription(planId: U256, subscriber: Address, lastPayment: U256, active: bool)

  /** The three plan mappings read at one id; an unused id reads all zero. */
  function PlanAt(s: State, id: U256): Plan
  {
    Plan(Get(s.planProvider, id, ZERO_ADDRESS), Get(s.planPrice, id, 0), Get(s.planInterval, id, 0))
  }

  function SubscriptionAt(s: State, id: U256): Subscription
  {
    Subscription(Get(s.subscriptionPlanId, id, 0), Get(s.subscriptionSubscriber, id, ZERO_ADDRESS),
                 Get(s.subscriptionLastPayment, id, 0), Get(s.subscriptionActive, id, false))
  }

  function ContentIpOf(s: State, subscriptionId: U256): Address
  {
    Get(s.subscriptionContentIp, subscriptionId, ZERO_ADDRESS)
  }

  function GetUserBalance(s: State, user: Address): U256
  {
    Get(s.userEscrowBalance, user, 0)
  }

  function IsProviderRegistered(s: State, provider: Address): bool
  {
    Get(s.registeredProviders, provider, false)
  }

  function GetPlanIpAsset(s: State, planId: U256): Address
  {
    Get(s.planIpAsset, planId, ZERO_ADDRESS)
  }

  function GetPlanMetadataUri(s: State, planId: U256): string
  {
    Get(s.planMetadataUri, planId, "")
  }

  function GetIpRoyaltyBalance(s: State, ipAsset: Address): U256
  {
    Get(s.ipAssetRoyaltyBalance, ipAsset, 0)
  }

  function HasIpLicense(s: State, holder: Address): bool
  {
    Get(s.ipLicenseHolders, holder, false)
  }

  /** Writes the four subscription mappings at one id. */
  function SetSubscription(s: State, id: U256, sub: Subscription): (s': State)
    ensures SubscriptionAt(s', id) == sub
    ensures forall j :: j != id ==> SubscriptionAt(s', j) == SubscriptionAt(s, j)
    ensures s'.(subscriptionPlanId := s.subscriptionPlanId, subscriptionSubscriber := s.subscriptionSubscriber,
                subscriptionLastPayment := s.subscriptionLastPayment,
                subscriptionActive := s.subscriptionActive) == s
    ensures CanonicalState(s) ==> CanonicalState(s')
  {
    s.(subscriptionPlanId := Put(s.subscriptionPlanId, id, sub.planId, 0),
       subscriptionSubscriber := Put(s.subscriptionSubscriber, id, sub.subscriber, ZERO_ADDRESS),
       subscriptionLastPayment := Put(s.subscriptionLastPayment, id, sub.lastPayment, 0),
       subscriptionActive := Put(s.subscriptionActive, id, sub.active, false))
  }

  /** Writes the last payment time of one subscription. */
  function SetLastPayment(s: State, id: U256, time: U256): (s': State)
    ensures SubscriptionAt(s', id) == SubscriptionAt(s, id).(lastPayment := time)
    ensures forall j :: j != id ==> SubscriptionAt(s', j) == SubscriptionAt(s, j)
    ensures forall u :: GetUserBalance(s', u) == GetUserBalance(s, u)
    ensures s'.(subscriptionLastPayment := s.subscriptionLastPayment) == s
    ensures CanonicalState(s) ==> CanonicalState(s')
  {
    s.(subscriptionLastPayment := Put(s.subscriptionLastPayment, id, time, 0))
  }

  /** Writes one user's escrow balance. */
  function SetBalance(s: State, user: Address, amount: U256): (s': State)
    ensures GetUserBalance(s', user) == amount
    ensures forall u :: u != user ==> GetUserBalance(s', u) == GetUserBalance(s, u)
    ensures s'.(userEscrowBalance := s.userEscrowBalance) == s
    ensures CanonicalState(s) ==> CanonicalState(s')
  {
    s.(userEscrowBalance := Put(s.userEscrowBalance, user, amount, 0))
  }

  // ---------------------------------------------------------------------
  // Administration and providers

  function Initialize(s: State, ctx: Ctx): (o: Outcome<bool>)
    ensures o.Ok? <==> s.admin == ZERO_ADDRESS
    ensures o.Err? ==> o.error == InvalidInput && o.state == s
    ensures o.Ok? ==>
      && o.value && o.events == []
      && o.state.admin == ctx.sender
      && o.state.nextPlanId == 1 && o.state.nextSubscriptionId == 1
      && o.state.protocolFeePercentage == PROTOCOL_FEE_BPS
      && o.state.(admin := s.admin, nextPlanId := s.nextPlanId,
                  nextSubscriptionId := s.nextSubscriptionId,
                  protocolFeePercentage := s.protocolFeePercentage) == s
  {
    if s.admin != ZERO_ADDRESS then Err(s, InvalidInput)
    else
      Ok(s.(admin := ctx.sender, nextPlanId := 1, nextSubscriptionId := 1,
            protocolFeePercentage := PROTOCOL_FEE_BPS), true, [])
  }

  function RegisterProvider(s: State, ctx: Ctx, name: seq<Byte>): (o: Outcome<bool>)
    ensures o.Ok? <==> |name| <= MAX_NAME_LENGTH && !IsProviderRegistered(s, ctx.sender)
    ensures o.Err? ==> o.error == InvalidInput && o.state == s
    ensures o.Ok? ==>
      && o.value
      && (forall p :: IsProviderRegistered(o.state, p) <==> IsProviderRegistered(s, p) || p == ctx.sender)
      && o.state.(registeredProviders := s.registeredProviders) == s
      && o.events == [ProviderRegistered(ctx.sender, name)]
    ensures CanonicalState(s) ==> CanonicalState(o.state)
  {
    if |name| > MAX_NAME_LENGTH then Err(s, InvalidInput)
    else if IsProviderRegistered(s, ctx.sender) then Err(s, InvalidInput)
    else
      Ok(s.(registeredProviders := Put(s.registeredProviders, ctx.sender, true, false)), true,
         [ProviderRegistered(ctx.sender, name)])
  }

  datatype Check = Pass | Fail(error: Error)

  function RequireRegisteredProvider(s: State, provider: Address): (c: Check)
    ensures c.Pass? <==> IsProviderRegistered(s, provider)
    ensures c.Fail? ==> c.error == Unauthorized
  {
    if !IsProviderRegistered(s, provider) then Fail(Unauthorized) else Pass
  }

  // ---------------------------------------------------------------------
  // Plans and subscriptions

  function CreatePlan(s: State, ctx: Ctx, price: U256, interval: U256, metadataHash: string): (o: Outcome<U256>)
    ensures o.Err? ==> o.state == s
    ensures o.Ok? <==> IsProviderRegistered(s, ctx.sender) && price != 0 && interval != 0
    ensures (o.Err? && o.error == Unauthorized) <==> !IsProviderRegistered(s, ctx.sender)
    ensures (o.Err? && o.error == InvalidInput) <==>
              IsProviderRegistered(s, ctx.sender) && (price == 0 || interval == 0)
    ensures o.Ok? ==>
      && o.value == s.nextPlanId
      && o.state.nextPlanId == Add(s.nextPlanId, 1)
      && PlanAt(o.state, o.value) == Plan(ctx.sender, price, interval)
      && (forall id :: id != o.value ==> PlanAt(o.state, id) == PlanAt(s, id))
      && o.state.(planProvider := s.planProvider, planPrice := s.planPrice,
                  planInterval := s.planInterval, nextPlanId := s.nextPlanId) == s
      && o.events == [PlanCreated(o.value, ctx.sender, price, interval)]
    ensures CanonicalState(s) ==> CanonicalState(o.state)
  {
    var check := RequireRegisteredProvider(s, ctx.sender);
    if check.Fail? then Err(s, check.error)
    else if price == 0 || interval == 0 then Err(s, InvalidInput)
    else
      var id := s.nextPlanId;
      var s' := s.(planProvider := Put(s.planProvider, id, ctx.sender, ZERO_ADDRESS),
                   planPrice := Put(s.planPrice, id, price, 0),
                   planInterval := Put(s.planInterval, id, interval, 0),
                   nextPlanId := Add(id, 1));
      Ok(s', id, [PlanCreated(id, ctx.sender, price, interval)])
  }

  /** Escrow balance of the caller once the attached value is credited. */
  function Credited(s: State, ctx: Ctx): U256
  {
    Add(GetUserBalance(s, ctx.sender), ctx.value)
  }

  /** The second half of `subscribe`, once the balance covers the price:
      the subscription record is written and the price debited, and only
      the debit is written back if the transfer to the provider fails. */
  function OpenSubscription(s: State, ctx: Ctx, planId: U256): (o: Outcome<U256>)
    requires GetUserBalance(s, ctx.sender) >= PlanAt(s, planId).price
    ensures o.Ok? <==> ctx.transferSucceeds
    ensures o.Err? ==>
      && o.error == InvalidInput
      && GetUserBalance(o.state, ctx.sender) == GetUserBalance(s, ctx.sender)
      && o.state.nextSubscriptionId == s.nextSubscriptionId
    ensures o.Ok? ==>
      && o.value == s.nextSubscriptionId
      && o.state.nextSubscriptionId == Add(s.nextSubscriptionId, 1)
      && GetUserBalance(o.state, ctx.sender) == GetUserBalance(s, ctx.sender) - PlanAt(s, planId).price
      && (forall u :: u != ctx.sender ==> GetUserBalance(o.state, u) == GetUserBalance(s, u))
      && SubscriptionAt(o.state, o.value) == Subscription(planId, ctx.sender, ctx.timestamp, true)
      && (forall id :: id != o.value ==> SubscriptionAt(o.state, id) == SubscriptionAt(s, id))
      && o.state.(userEscrowBalance := s.userEscrowBalance, subscriptionPlanId := s.subscriptionPlanId,
                  subscriptionSubscriber := s.subscriptionSubscriber,
                  subscriptionLastPayment := s.subscriptionLastPayment,
                  subscriptionActive := s.subscriptionActive,
                  nextSubscriptionId := s.nextSubscriptionId) == s
    ensures CanonicalState(s) ==> CanonicalState(o.state)
  {
    var plan := PlanAt(s, planId);
    var userBalance := GetUserBalance(s, ctx.sender);
    var providerAmount := ProviderAmount(plan.price, s.protocolFeePercentage);
    var id := s.nextSubscriptionId;
    var s2 := SetBalance(SetSubscription(s, id, Subscription(planId, ctx.sender, ctx.timestamp, true)),
                         ctx.sender, userBalance - plan.price);
    if !ctx.transferSucceeds then
      Err(SetBalance(s2, ctx.sender, userBalance), InvalidInput)
    else
      Ok(s2.(nextSubscriptionId := Add(id, 1)), id,
         [SubscriptionCreated(id, ctx.sender, planId),
          PaymentProcessed(ctx.sender, plan.provider, providerAmount, id),
          ProviderEarnings(plan.provider, planId, providerAmount)])
  }

  function Subscribe(s: State, ctx: Ctx, planId: U256): (o: Outcome<U256>)
    ensures o.Ok? <==>
              && PlanAt(s, planId).provider != ZERO_ADDRESS && Credited(s, ctx) >= PlanAt(s, planId).price
              && ctx.transferSucceeds
    ensures (o.Err? && o.error == NotFound) <==> PlanAt(s, planId).provider == ZERO_ADDRESS
    ensures (o.Err? && o.error == NotFound) ==> o.state == s
    ensures (o.Err? && o.error == InsufficientFunds) <==>
              PlanAt(s, planId).provider != ZERO_ADDRESS && Credited(s, ctx) < PlanAt(s, planId).price
    ensures (o.Err? && o.error == InvalidInput) <==>
              && PlanAt(s, planId).provider != ZERO_ADDRESS && Credited(s, ctx) >= PlanAt(s, planId).price
              && !ctx.transferSucceeds
    ensures (o.Err? && o.error == InsufficientFunds) ==>
      && (forall u :: u != ctx.sender ==> GetUserBalance(o.state, u) == GetUserBalance(s, u))
      && o.state.(userEscrowBalance := s.userEscrowBalance) == s
    ensures o.Err? ==>
      && GetUserBalance(o.state, ctx.sender) == (if o.error == NotFound then GetUserBalance(s, ctx.sender) else Credited(s, ctx))
      && o.state.nextSubscriptionId == s.nextSubscriptionId
    ensures o.Ok? ==>
      && o.value == s.nextSubscriptionId
      && o.state.nextSubscriptionId == Add(s.nextSubscriptionId, 1)
      && GetUserBalance(o.state, ctx.sender) == Credited(s, ctx) - PlanAt(s, planId).price
      && (forall u :: u != ctx.sender ==> GetUserBalance(o.state, u) == GetUserBalance(s, u))
      && SubscriptionAt(o.state, o.value) == Subscription(planId, ctx.sender, ctx.timestamp, true)
      && (forall id :: id != o.value ==> SubscriptionAt(o.state, id) == SubscriptionAt(s, id))
      && o.state.(userEscrowBalance := s.userEscrowBalance, subscriptionPlanId := s.subscriptionPlanId,
                  subscriptionSubscriber := s.subscriptionSubscriber,
                  subscriptionLastPayment := s.subscriptionLastPayment,
                  subscriptionActive := s.subscriptionActive,
                  nextSubscriptionId := s.nextSubscriptionId) == s
    ensures CanonicalState(s) ==> CanonicalState(o.state)
  {
    var plan := PlanAt(s, planId);
    if plan.provider == ZERO_ADDRESS then Err(s, NotFound)
    else
      var s1 := if ctx.value > 0 then SetBalance(s, ctx.sender, Credited(s, ctx)) else s;
      var userBalance := GetUserBalance(s1, ctx.sender);
      if userBalance < plan.price then Err(s1, InsufficientFunds)
      else
        OpenSubscription(s1, ctx, planId)
  }

  /** True iff a renewal of subscription `id` is due at time `now`. */
  predicate PaymentDue(s: State, id: U256, now: U256)
  {
    var sub := SubscriptionAt(s, id);
    now >= Add(sub.lastPayment, PlanAt(s, sub.planId).interval)
  }

  /** The charging half of a renewal: the subscriber is debited and the
      payment time moved to now, then both are written back if the transfer
      to the provider fails. */
  function ChargeRenewal(s: State, ctx: Ctx, id: U256): (o: Outcome<bool>)
    requires GetUserBalance(s, SubscriptionAt(s, id).subscriber) >= PlanAt(s, SubscriptionAt(s, id).planId).price
    ensures o.Ok? <==> ctx.transferSucceeds
    ensures o.Err? ==>
              && o.error == InvalidInput
              && GetUserBalance(o.state, SubscriptionAt(s, id).subscriber) == GetUserBalance(s, SubscriptionAt(s, id).subscriber)
              && SubscriptionAt(o.state, id) == SubscriptionAt(s, id)
              && (CanonicalState(s) ==> o.state == s)
    ensures o.Ok? ==>
      var sub := SubscriptionAt(s, id);
      && o.value
      && GetUserBalance(o.state, sub.subscriber) == GetUserBalance(s, sub.subscriber) - PlanAt(s, sub.planId).price
      && (forall u :: u != sub.subscriber ==> GetUserBalance(o.state, u) == GetUserBalance(s, u))
      && SubscriptionAt(o.state, id) == sub.(lastPayment := ctx.timestamp)
      && (forall j :: j != id ==> SubscriptionAt(o.state, j) == SubscriptionAt(s, j))
      && o.state.(userEscrowBalance := s.userEscrowBalance,
                  subscriptionLastPayment := s.subscriptionLastPayment) == s
    ensures CanonicalState(s) ==> CanonicalState(o.state)
  {
    var sub := SubscriptionAt(s, id);
    var plan := PlanAt(s, sub.planId);
    var userBalance := GetUserBalance(s, sub.subscriber);
    var providerAmount := ProviderAmount(plan.price, s.protocolFeePercentage);
    var s0 := SetBalance(s, sub.subscriber, userBalance - plan.price);
    var s1 := SetLastPayment(s0, id, ctx.timestamp);
    if !ctx.transferSucceeds then
      var r0 := SetBalance(s1, sub.subscriber, userBalance);
      var restored := SetLastPayment(r0, id, sub.lastPayment);
      assert CanonicalState(s) ==> restored == s by {
        if CanonicalState(s) {
          PutRestores(s.userEscrowBalance, sub.subscriber, userBalance - plan.price, 0);
          PutRestores(s.subscriptionLastPayment, id, ctx.timestamp, 0);
          assert restored.userEscrowBalance == s.userEscrowBalance;
          assert restored.subscriptionLastPayment == s.subscriptionLastPayment;
        }
      }
      Err(restored, InvalidInput)
    else
      Ok(s1, true,
         [PaymentProcessed(sub.subscriber, plan.provider, providerAmount, id),
          ProviderEarnings(plan.provider, sub.planId, providerAmount)])
  }

  function ProcessSubscriptionPayment(s: State, ctx: Ctx, id: U256): (o: Outcome<bool>)
    ensures (o.Err? && o.error == InvalidInput) <==>
              !SubscriptionAt(s, id).active || !PaymentDue(s, id, ctx.timestamp)
              || (GetUserBalance(s, SubscriptionAt(s, id).subscriber) >= PlanAt(s, SubscriptionAt(s, id).planId).price
                  && !ctx.transferSucceeds)
    ensures (o.Err? && o.error == InvalidInput) ==>
              && GetUserBalance(o.state, SubscriptionAt(s, id).subscriber) == GetUserBalance(s, SubscriptionAt(s, id).subscriber)
              && SubscriptionAt(o.state, id) == SubscriptionAt(s, id)
              && (CanonicalState(s) ==> o.state == s)
    ensures (o.Err? && o.error == InsufficientFunds) <==>
              && SubscriptionAt(s, id).active && PaymentDue(s, id, ctx.timestamp)
              && GetUserBalance(s, SubscriptionAt(s, id).subscriber) < PlanAt(s, SubscriptionAt(s, id).planId).price
    ensures (o.Err? && o.error == InsufficientFunds) ==>
              && !SubscriptionAt(o.state, id).active
              && (forall j :: j != id ==> SubscriptionAt(o.state, j) == SubscriptionAt(s, j))
              && o.state.(subscriptionActive := s.subscriptionActive) == s
    ensures o.Ok? <==>
              && SubscriptionAt(s, id).active && PaymentDue(s, id, ctx.timestamp)
              && GetUserBalance(s, SubscriptionAt(s, id).subscriber) >= PlanAt(s, SubscriptionAt(s, id).planId).price
              && ctx.transferSucceeds
    ensures o.Ok? ==>
      var sub := SubscriptionAt(s, id);
      && o.value
      && GetUserBalance(o.state, sub.subscriber) == GetUserBalance(s, sub.subscriber) - PlanAt(s, sub.planId).price
      && (forall u :: u != sub.subscriber ==> GetUserBalance(o.state, u) == GetUserBalance(s, u))
      && SubscriptionAt(o.state, id) == sub.(lastPayment := ctx.timestamp)
      && (forall j :: j != id ==> SubscriptionAt(o.state, j) == SubscriptionAt(s, j))
      && o.state.(userEscrowBalance := s.userEscrowBalance,
                  subscriptionLastPayment := s.subscriptionLastPayment) == s
    ensures CanonicalState(s) ==> CanonicalState(o.state)
  {
    var sub := SubscriptionAt(s, id);
    if !sub.active then Err(s, InvalidInput)
    else
      var plan := PlanAt(s, sub.planId);
      if ctx.timestamp < Add(sub.lastPayment, plan.interval) then Err(s, InvalidInput)
      else
        var userBalance := GetUserBalance(s, sub.subscriber);
        if userBalance < plan.price then
          Err(s.(subscriptionActive := Put(s.subscriptionActive, id, false, false)), InsufficientFunds)
        else ChargeRenewal(s, ctx, id)
  }

  // ---------------------------------------------------------------------
  // Escrow balance

  function Deposit(s: State, ctx: Ctx): (o: Outcome<bool>)
    ensures o.Err? <==> ctx.value == 0
    ensures o.Err? ==> o.error == InvalidInput && o.state == s
    ensures o.Ok? ==>
      && o.value
      && GetUserBalance(o.state, ctx.sender) == Credited(s, ctx)
      && (forall u :: u != ctx.sender ==> GetUserBalance(o.state, u) == GetUserBalance(s, u))
      && o.state.(userEscrowBalance := s.userEscrowBalance) == s
      && o.events == [EscrowDeposit(ctx.sender, ctx.value, Credited(s, ctx))]
    ensures CanonicalState(s) ==> CanonicalState(o.state)
  {
    if ctx.value == 0 then Err(s, InvalidInput)
    else
      var newBalance := Credited(s, ctx);
      Ok(SetBalance(s, ctx.sender, newBalance), true, [EscrowDeposit(ctx.sender, ctx.value, newBalance)])
  }

  function Withdraw(s: State, ctx: Ctx, amount: U256): (o: Outcome<bool>)
    ensures o.Ok? <==> 0 < amount <= GetUserBalance(s, ctx.sender) && ctx.transferSucceeds
    ensures (o.Err? && o.error == InsufficientFunds) <==> amount == 0 || GetUserBalance(s, ctx.sender) < amount
    ensures (o.Err? && o.error == InsufficientFunds) ==> o.state == s
    ensures (o.Err? && o.error == InvalidInput) <==>
              0 < amount <= GetUserBalance(s, ctx.sender) && !ctx.transferSucceeds
    ensures (o.Err? && o.error == InvalidInput) ==>
              GetUserBalance(o.state, ctx.sender) == GetUserBalance(s, ctx.sender)
              && (CanonicalState(s) ==> o.state == s)
    ensures o.Ok? ==>
      && o.value
      && GetUserBalance(o.state, ctx.sender) == GetUserBalance(s, ctx.sender) - amount
      && (forall u :: u != ctx.sender ==> GetUserBalance(o.state, u) == GetUserBalance(s, u))
      && o.state.(userEscrowBalance := s.userEscrowBalance) == s
      && o.events == [EscrowWithdrawal(ctx.sender, amount, GetUserBalance(o.state, ctx.sender))]
    ensures CanonicalState(s) ==> CanonicalState(o.state)
  {
    var userBalance := GetUserBalance(s, ctx.sender);
    if amount == 0 || userBalance < amount then Err(s, InsufficientFunds)
    else
      var newBalance := userBalance - amount;
      var s1 := SetBalance(s, ctx.sender, newBalance);
      if !ctx.transferSucceeds then
        var restored := SetBalance(s1, ctx.sender, userBalance);
        assert CanonicalState(s) ==> restored == s by {
          if CanonicalState(s) {
            PutRestores(s.userEscrowBalance, ctx.sender, newBalance, 0);
          }
        }
        Err(restored, InvalidInput)
      else
        Ok(s1, true, [EscrowWithdrawal(ctx.sender, amount, newBalance)])
  }

  // ---------------------------------------------------------------------
  // IP integration

  function RegisterPlanIpAsset(s: State, ctx: Ctx, planId: U256, ipAsset: Address, metadataUri: string): (o: Outcome<bool>)
    ensures o.Ok? <==> PlanAt(s, planId).provider == ctx.sender && ipAsset != ZERO_ADDRESS
    ensures (o.Err? && o.error == Unauthorized) <==> PlanAt(s, planId).provider != ctx.sender
    ensures (o.Err? && o.error == InvalidInput) <==>
              PlanAt(s, planId).provider == ctx.sender && ipAsset == ZERO_ADDRESS
    ensures o.Err? ==> o.state == s
    ensures o.Ok? ==>
      && o.value
      && GetPlanIpAsset(o.state, planId) == ipAsset
      && GetPlanMetadataUri(o.state, planId) == metadataUri
      && (forall p :: p != planId ==>
            GetPlanIpAsset(o.state, p) == GetPlanIpAsset(s, p) && GetPlanMetadataUri(o.state, p) == GetPlanMetadataUri(s, p))
      && o.state.(planIpAsset := s.planIpAsset, planMetadataUri := s.planMetadataUri) == s
      && o.events == [IPAssetRegistered(planId, ipAsset, metadataUri)]
    ensures CanonicalState(s) ==> CanonicalState(o.state)
  {
    if PlanAt(s, planId).provider != ctx.sender then Err(s, Unauthorized)
    else if ipAsset == ZERO_ADDRESS then Err(s, InvalidInput)
    else
      Ok(s.(planIpAsset := Put(s.planIpAsset, planId, ipAsset, ZERO_ADDRESS),
            planMetadataUri := Put(s.planMetadataUri, planId, metadataUri, "")),
         true, [IPAssetRegistered(planId, ipAsset, metadataUri)])
  }

  function RecordLicenseAttachment(s: State, ipAsset: Address, licenseTermsId: U256): (o: Outcome<bool>)
    ensures o.Err? <==> ipAsset == ZERO_ADDRESS
    ensures o.Err? ==> o.error == InvalidInput
    ensures o.state == s
    ensures o.Ok? ==> o.value && o.events == [IPLicenseAttached(ipAsset, licenseTermsId)]
  {
    if ipAsset == ZERO_ADDRESS then Err(s, InvalidInput)
    else Ok(s, true, [IPLicenseAttached(ipAsset, licenseTermsId)])
  }

  function RecordLicenseMint(s: State, ipAsset: Address, licensee: Address, tokenId: U256): (o: Outcome<bool>)
    ensures o.Err? <==> ipAsset == ZERO_ADDRESS || licensee == ZERO_ADDRESS
    ensures o.Err? ==> o.error == InvalidInput && o.state == s
    ensures o.Ok? ==>
      && o.value
      && (forall h :: HasIpLicense(o.state, h) <==> HasIpLicense(s, h) || h == licensee)
      && o.state.(ipLicenseHolders := s.ipLicenseHolders) == s
      && o.events == [IPLicenseMinted(ipAsset, licensee, tokenId)]
    ensures CanonicalState(s) ==> CanonicalState(o.state)
  {
    if ipAsset == ZERO_ADDRESS || licensee == ZERO_ADDRESS then Err(s, InvalidInput)
    else
      Ok(s.(ipLicenseHolders := Put(s.ipLicenseHolders, licensee, true, false)), true,
         [IPLicenseMinted(ipAsset, licensee, tokenId)])
  }

  function DistributeIpRoyalty(s: State, ctx: Ctx, ipAsset: Address, recipient: Address, amount: U256): (o: Outcome<bool>)
    ensures o.Ok? <==> ctx.sender == s.admin && amount != 0 && recipient != ZERO_ADDRESS
    ensures (o.Err? && o.error == Unauthorized) <==> ctx.sender != s.admin
    ensures (o.Err? && o.error == InvalidInput) <==>
              ctx.sender == s.admin && (amount == 0 || recipient == ZERO_ADDRESS)
    ensures o.Err? ==> o.state == s
    ensures o.Ok? ==>
      && o.value
      && GetIpRoyaltyBalance(o.state, ipAsset) == Add(GetIpRoyaltyBalance(s, ipAsset), amount)
      && (forall a :: a != ipAsset ==> GetIpRoyaltyBalance(o.state, a) == GetIpRoyaltyBalance(s, a))
      && o.state.(ipAssetRoyaltyBalance := s.ipAssetRoyaltyBalance) == s
      && o.events == [IPRoyaltyPaid(ipAsset, recipient, amount)]
    ensures CanonicalState(s) ==> CanonicalState(o.state)
  {
    if ctx.sender != s.admin then Err(s, Unauthorized)
    else if amount == 0 || recipient == ZERO_ADDRESS then Err(s, InvalidInput)
    else
      var newBalance := Add(GetIpRoyaltyBalance(s, ipAsset), amount);
      Ok(s.(ipAssetRoyaltyBalance := Put(s.ipAssetRoyaltyBalance, ipAsset, newBalance, 0)), true,
         [IPRoyaltyPaid(ipAsset, recipient, amount)])
  }

  function RegisterContentIp(s: State, ctx: Ctx, subscriptionId: U256, contentIpAsset: Address): (o: Outcome<bool>)
    ensures o.Ok? <==> SubscriptionAt(s, subscriptionId).subscriber == ctx.sender && SubscriptionAt(s, subscriptionId).active
    ensures (o.Err? && o.error == Unauthorized) <==> SubscriptionAt(s, subscriptionId).subscriber != ctx.sender
    ensures (o.Err? && o.error == InvalidInput) <==>
              SubscriptionAt(s, subscriptionId).subscriber == ctx.sender && !SubscriptionAt(s, subscriptionId).active
    ensures o.Err? ==> o.state == s
    ensures o.Ok? ==>
      && o.value
      && ContentIpOf(o.state, subscriptionId) == contentIpAsset
      && (forall j :: j != subscriptionId ==> ContentIpOf(o.state, j) == ContentIpOf(s, j))
      && o.state.(subscriptionContentIp := s.subscriptionContentIp) == s
      && o.events == [ContentIPRegistered(subscriptionId, ctx.sender, contentIpAsset)]
    ensures CanonicalState(s) ==> CanonicalState(o.state)
  {
    var sub := SubscriptionAt(s, subscriptionId);
    if sub.subscriber != ctx.sender then Err(s, Unauthorized)
    else if !sub.active then Err(s, InvalidInput)
    else
      Ok(s.(subscriptionContentIp := Put(s.subscriptionContentIp, subscriptionId, contentIpAsset, ZERO_ADDRESS)),
         true, [ContentIPRegistered(subscriptionId, ctx.sender, contentIpAsset)])
  }
}

=== FILE: escrow_machine.dfy ===
/** The escrow contract as a transaction system: a transaction is one public
    call with its context, a failing call is reverted, and a run is a
    sequence of transactions. The invariants of the plan and subscription
    tables hold in every state reachable from deployment.

    `initialize` as written resets both id counters to 1 even when
    `create_plan` or `subscribe` already ran (neither requires the contract
    to be initialised), so a later plan can overwrite an existing one; see
    `InitializeRewindsPlanIds`. The transaction system uses
    `InitializeNoRewind`, which agrees with `initialize` on a freshly
    deployed contract and never moves a counter backwards. */
module EscrowMachine {
  import opened Word
  import opened Storage
  import E = Escrow
  import Marketplace

  datatype Tx =
    | Initialize
    | RegisterProvider(name: seq<E.Byte>)
    | CreatePlan(price: U256, interval: U256, metadataHash: string)
    | Subscribe(planId: U256)
    | ProcessSubscriptionPayment(subscriptionId: U256)
    | Deposit
    | Withdraw(amount: U256)
    | RegisterPlanIpAsset(planId: U256, ipAsset: Address, metadataUri: string)
    | RecordLicenseAttachment(ipAsset: Address, licenseTermsId: U256)
    | RecordLicenseMint(ipAsset: Address, licensee: Address, tokenId: U256)
    | DistributeIpRoyalty(ipAsset: Address, recipient: Address, amount: U256)
    | RegisterContentIp(subscriptionId: U256, contentIpAsset: Address)

  /** A counter value that starts the id sequence at 1 but never goes back. */
  function NoRewind(counter: U256): (r: U256)
    ensures r >= 1 && r >= counter
    ensures counter >= 1 ==> r == counter
  {
    if counter == 0 then 1 else counter
  }

  /** `initialize` with counters that never move backwards. */
  function InitializeNoRewind(s: E.State, ctx: E.Ctx): (o: E.Outcome<bool>)
    ensures o.Ok? <==> s.admin == ZERO_ADDRESS
    ensures o.Err? ==> o.error == E.InvalidInput && o.state == s
    ensures o.Ok? ==>
      && o.state.admin == ctx.sender
      && o.state.protocolFeePercentage == PROTOCOL_FEE_BPS
      && 1 <= o.state.nextPlanId && s.nextPlanId <= o.state.nextPlanId <= s.nextPlanId + 1
      && 1 <= o.state.nextSubscriptionId && s.nextSubscriptionId <= o.state.nextSubscriptionId <= s.nextSubscriptionId + 1
      && o.state.(admin := s.admin, nextPlanId := s.nextPlanId,
                  nextSubscriptionId := s.nextSubscriptionId,
                  protocolFeePercentage := s.protocolFeePercentage) == s
    ensures s.nextPlanId <= 1 && s.nextSubscriptionId <= 1 ==> o == E.Initialize(s, ctx)
  {
    if s.admin != ZERO_ADDRESS then E.Err(s, E.InvalidInput)
    else
      E.Ok(s.(admin := ctx.sender, nextPlanId := NoRewind(s.nextPlanId),
              nextSubscriptionId := NoRewind(s.nextSubscriptionId),
              protocolFeePercentage := PROTOCOL_FEE_BPS), true, [])
  }

  /** Only `subscribe` and `deposit` are `#[payable]`; the Stylus router
      reverts a call to any other method that carries value. */
  predicate Payable(tx: Tx)
  {
    tx.Subscribe? || tx.Deposit?
  }

  /** The storage after one transaction. */
  function Apply(s: E.State, ctx: E.Ctx, tx: Tx): (s': E.State)
  {
    if ctx.value > 0 && !Payable(tx) then s
    else match tx
    case Initialize => E.Commit(s, InitializeNoRewind(s, ctx))
    case RegisterProvider(name) => E.Commit(s, E.RegisterProvider(s, ctx, name))
    case CreatePlan(price, interval, hash) => E.Commit(s, E.CreatePlan(s, ctx, price, interval, hash))
    case Subscribe(planId) => E.Commit(s, E.Subscribe(s, ctx, planId))
    case ProcessSubscriptionPayment(id) => E.Commit(s, E.ProcessSubscriptionPayment(s, ctx, id))
    case Deposit => E.Commit(s, E.Deposit(s, ctx))
    case Withdraw(amount) => E.Commit(s, E.Withdraw(s, ctx, amount))
    case RegisterPlanIpAsset(planId, asset, uri) => E.Commit(s, E.RegisterPlanIpAsset(s, ctx, planId, asset, uri))
    case RecordLicenseAttachment(asset, terms) => E.Commit(s, E.RecordLicenseAttachment(s, asset, terms))
    case RecordLicenseMint(asset, licensee, token) => E.Commit(s, E.RecordLicenseMint(s, asset, licensee, token))
    case DistributeIpRoyalty(asset, recipient, amount) => E.Commit(s, E.DistributeIpRoyalty(s, ctx, asset, recipient, amount))
    case RegisterContentIp(id, asset) => E.Commit(s, E.RegisterContentIp(s, ctx, id, asset))
  }

  /** The storage after a sequence of transactions. */
  function Run(s: E.State, txs: seq<(E.Ctx, Tx)>): (s': E.State)
    decreases |txs|
  {
    if txs == [] then s else Run(Apply(s, txs[0].0, txs[0].1), txs[1..])
  }

  /** Every transaction comes from an account: `msg_sender` is never the zero address. */
  ghost predicate RealSenders(txs: seq<(E.Ctx, Tx)>)
  {
    forall i :: 0 <= i < |txs| ==> txs[i].0.sender != ZERO_ADDRESS
  }

  // ---------------------------------------------------------------------
  // Invariants

  /** Every used plan id lies below `next_plan_id` and holds a non-zero price
      and interval, and every id in [1, next_plan_id) is used. */
  ghost predicate PlanTableInv(s: E.State)
  {
    && (forall id: U256 :: E.PlanAt(s, id).provider != ZERO_ADDRESS ==>
          id < s.nextPlanId && E.PlanAt(s, id).price != 0 && E.PlanAt(s, id).interval != 0)
    && (forall id: U256 :: 1 <= id < s.nextPlanId ==> E.PlanAt(s, id).provider != ZERO_ADDRESS)
  }

  /** Every subscription record lies below `next_subscription_id`, belongs to
      a subscriber and refers to an existing plan. */
  ghost predicate SubscriptionTableInv(s: E.State)
  {
    forall id: U256 :: E.SubscriptionAt(s, id) != E.Subscription(0, ZERO_ADDRESS, 0, false) ==>
      && id < s.nextSubscriptionId
      && E.SubscriptionAt(s, id).subscriber != ZERO_ADDRESS
      && E.PlanAt(s, E.SubscriptionAt(s, id).planId).provider != ZERO_ADDRESS
  }

  ghost predicate Inv(s: E.State)
  {
    && E.CanonicalState(s)
    && PlanTableInv(s)
    && SubscriptionTableInv(s)
    && s.protocolFeePercentage <= BPS_DENOMINATOR
  }

  /** What one transaction may do to the counters and the admin: each
      counter moves forward by at most one, and an installed admin stays. */
  ghost predicate Advances(s: E.State, s': E.State)
  {
    && s.nextPlanId <= s'.nextPlanId <= s.nextPlanId + 1
    && s.nextSubscriptionId <= s'.nextSubscriptionId <= s.nextSubscriptionId + 1
    && (s.admin != ZERO_ADDRESS ==> s'.admin == s.admin)
  }

  lemma DeployedInv()
    ensures Inv(E.Deployed())
  {
  }

  /** The invariant only depends on the plan and subscription tables, the
      counters and the fee. */
  lemma InvFrame(s: E.State, s': E.State)
    requires Inv(s) && E.CanonicalState(s')
    requires s'.planProvider == s.planProvider && s'.planPrice == s.planPrice
    requires s'.planInterval == s.planInterval && s'.nextPlanId == s.nextPlanId
    requires s'.subscriptionPlanId == s.subscriptionPlanId && s'.subscriptionSubscriber == s.subscriptionSubscriber
    requires s'.subscriptionLastPayment == s.subscriptionLastPayment && s'.subscriptionActive == s.subscriptionActive
    requires s'.nextSubscriptionId == s.nextSubscriptionId
    requires s'.protocolFeePercentage == s.protocolFeePercentage
    ensures Inv(s')
  {
    assert forall id: U256 :: E.PlanAt(s', id) == E.PlanAt(s, id);
    assert forall id: U256 :: E.SubscriptionAt(s', id) == E.SubscriptionAt(s, id);
  }

  /** The committed outcome of `create_plan` keeps the plan table invariant. */
  lemma CreatePlanKeepsPlanTable(s: E.State, ctx: E.Ctx, price: U256, interval: U256, hash: string)
    requires Inv(s) && ctx.sender != ZERO_ADDRESS && s.nextPlanId < MAX_U256
    ensures PlanTableInv(E.Commit(s, E.CreatePlan(s, ctx, price, interval, hash)))
  {
    var o := E.CreatePlan(s, ctx, price, interval, hash);
    if o.Ok? {
      var s' := o.state;
      forall id: U256 | E.PlanAt(s', id).provider != ZERO_ADDRESS
        ensures id < s'.nextPlanId && E.PlanAt(s', id).price != 0 && E.PlanAt(s', id).interval != 0
      {
        if id != o.value {
          assert E.PlanAt(s', id) == E.PlanAt(s, id);
        }
      }
      forall id: U256 | 1 <= id < s'.nextPlanId
        ensures E.PlanAt(s', id).provider != ZERO_ADDRESS
      {
        if id != o.value {
          assert E.PlanAt(s', id) == E.PlanAt(s, id);
        }
      }
    }
  }

  /** The committed outcome of `create_plan` keeps the subscription table
      invariant: a new plan never breaks a subscription's plan reference. */
  lemma CreatePlanKeepsSubscriptionTable(s: E.State, ctx: E.Ctx, price: U256, interval: U256, hash: string)
    requires Inv(s) && ctx.sender != ZERO_ADDRESS && s.nextPlanId < MAX_U256
    ensures SubscriptionTableInv(E.Commit(s, E.CreatePlan(s, ctx, price, interval, hash)))
  {
    var o := E.CreatePlan(s, ctx, price, interval, hash);
    if o.Ok? {
      var s' := o.state;
      assert forall id: U256 :: E.SubscriptionAt(s', id) == E.SubscriptionAt(s, id);
      forall id: U256 | E.SubscriptionAt(s', id) != E.Subscription(0, ZERO_ADDRESS, 0, false)
        ensures E.PlanAt(s', E.SubscriptionAt(s', id).planId).provider != ZERO_ADDRESS
      {
        var p := E.SubscriptionAt(s, id).planId;
        assert E.PlanAt(s, p).provider != ZERO_ADDRESS;
        if p != o.value {
          assert E.PlanAt(s', p) == E.PlanAt(s, p);
        }
      }
    }
  }

  /** `create_plan` as a transaction keeps the invariant and moves the counters
      forward by at most one. */
  lemma CreatePlanPreservesInv(s: E.State, ctx: E.Ctx, price: U256, interval: U256, hash: string)
    requires Inv(s) && ctx.sender != ZERO_ADDRESS && s.nextPlanId < MAX_U256
    ensures Inv(Apply(s, ctx, CreatePlan(price, interval, hash)))
    ensures Advances(s, Apply(s, ctx, CreatePlan(price, interval, hash)))
    ensures Apply(s, ctx, CreatePlan(price, interval, hash)).nextSubscriptionId == s.nextSubscriptionId
  {
    CreatePlanKeepsPlanTable(s, ctx, price, interval, hash);
    CreatePlanKeepsSubscriptionTable(s, ctx, price, interval, hash);
  }

  /** The committed outcome of `subscribe` keeps the invariant. */
  lemma {:induction false} SubscribeKeepsInv(s: E.State, ctx: E.Ctx, planId: U256)
    requires Inv(s) && ctx.sender != ZERO_ADDRESS && s.nextSubscriptionId < MAX_U256
    ensures Inv(E.Commit(s, E.Subscribe(s, ctx, planId)))
  {
    var o := E.Subscribe(s, ctx, planId);
    if o.Ok? {
      var s' := o.state;
      assert forall id: U256 :: E.PlanAt(s', id) == E.PlanAt(s, id);
      forall id: U256 | E.SubscriptionAt(s', id) != E.Subscription(0, ZERO_ADDRESS, 0, false)
        ensures && id < s'.nextSubscriptionId
                && E.SubscriptionAt(s', id).subscriber != ZERO_ADDRESS
                && E.PlanAt(s', E.SubscriptionAt(s', id).planId).provider != ZERO_ADDRESS
      {
        if id != o.value {
          assert E.SubscriptionAt(s', id) == E.SubscriptionAt(s, id);
        }
      }
    }
  }

  /** `subscribe` as a transaction keeps the invariant and moves the counters
      forward by at most one. */
  lemma SubscribePreservesInv(s: E.State, ctx: E.Ctx, planId: U256)
    requires Inv(s) && ctx.sender != ZERO_ADDRESS && s.nextSubscriptionId < MAX_U256
    ensures Inv(Apply(s, ctx, Subscribe(planId)))
    ensures Advances(s, Apply(s, ctx, Subscribe(planId)))
    ensures Apply(s, ctx, Subscribe(planId)).nextPlanId == s.nextPlanId
  {
    SubscribeKeepsInv(s, ctx, planId);
  }

  /** The committed outcome of `process_subscription_payment` keeps the invariant. */
  lemma {:induction false} ProcessPaymentKeepsInv(s: E.State, ctx: E.Ctx, id: U256)
    requires Inv(s)
    ensures Inv(E.Commit(s, E.ProcessSubscriptionPayment(s, ctx, id)))
  {
    var o := E.ProcessSubscriptionPayment(s, ctx, id);
    if o.Ok? {
      var s' := o.state;
      assert forall p: U256 :: E.PlanAt(s', p) == E.PlanAt(s, p);
      forall j: U256 | E.SubscriptionAt(s', j) != E.Subscription(0, ZERO_ADDRESS, 0, false)
        ensures && j < s'.nextSubscriptionId
                && E.SubscriptionAt(s', j).subscriber != ZERO_ADDRESS
                && E.PlanAt(s', E.SubscriptionAt(s', j).planId).provider != ZERO_ADDRESS
      {
        if j != id {
          assert E.SubscriptionAt(s', j) == E.SubscriptionAt(s, j);
        } else {
          assert E.SubscriptionAt(s, id).active;
        }
      }
    }
  }

  /** `process_subscription_payment` as a transaction keeps the invariant and moves the counters
      forward by at most one. */
  lemma ProcessPaymentPreservesInv(s: E.State, ctx: E.Ctx, id: U256)
    requires Inv(s)
    ensures Inv(Apply(s, ctx, ProcessSubscriptionPayment(id)))
    ensures Advances(s, Apply(s, ctx, ProcessSubscriptionPayment(id)))
  {
    ProcessPaymentKeepsInv(s, ctx, id);
  }

  /** The committed outcome of the corrected `initialize` keeps the invariant. */
  lemma InitializeKeepsInv(s: E.State, ctx: E.Ctx)
    requires Inv(s)
    ensures Inv(E.Commit(s, InitializeNoRewind(s, ctx)))
  {
    var s' := E.Commit(s, InitializeNoRewind(s, ctx));
    assert forall id: U256 :: E.PlanAt(s', id) == E.PlanAt(s, id);
    assert forall id: U256 :: E.SubscriptionAt(s', id) == E.SubscriptionAt(s, id);
  }

  /** the corrected `initialize` as a transaction keeps the invariant and moves the counters
      forward by at most one. */
  lemma InitializePreservesInv(s: E.State, ctx: E.Ctx)
    requires Inv(s)
    ensures Inv(Apply(s, ctx, Initialize))
    ensures Advances(s, Apply(s, ctx, Initialize))
  {
    InitializeKeepsInv(s, ctx);
  }

  lemma RegisterProviderPreservesInv(s: E.State, ctx: E.Ctx, name: seq<E.Byte>)
    requires Inv(s)
    ensures Inv(Apply(s, ctx, RegisterProvider(name)))
    ensures Advances(s, Apply(s, ctx, RegisterProvider(name)))
  {
    var o := E.RegisterProvider(s, ctx, name);
    if o.Ok? {
      InvFrame(s, o.state);
    }
  }

  lemma DepositPreservesInv(s: E.State, ctx: E.Ctx)
    requires Inv(s)
    ensures Inv(Apply(s, ctx, Deposit))
    ensures Advances(s, Apply(s, ctx, Deposit))
  {
    var o := E.Deposit(s, ctx);
    if o.Ok? {
      InvFrame(s, o.state);
    }
  }

  lemma WithdrawPreservesInv(s: E.State, ctx: E.Ctx, amount: U256)
    requires Inv(s)
    ensures Inv(Apply(s, ctx, Withdraw(amount)))
    ensures Advances(s, Apply(s, ctx, Withdraw(amount)))
  {
    var o := E.Withdraw(s, ctx, amount);
    if o.Ok? {
      InvFrame(s, o.state);
    }
  }

  lemma RegisterPlanIpAssetPreservesInv(s: E.State, ctx: E.Ctx, planId: U256, asset: Address, uri: string)
    requires Inv(s)
    ensures Inv(Apply(s, ctx, RegisterPlanIpAsset(planId, asset, uri)))
    ensures Advances(s, Apply(s, ctx, RegisterPlanIpAsset(planId, asset, uri)))
  {
    var o := E.RegisterPlanIpAsset(s, ctx, planId, asset, uri);
    if o.Ok? {
      InvFrame(s, o.state);
    }
  }

  lemma RecordLicenseAttachmentPreservesInv(s: E.State, ctx: E.Ctx, asset: Address, terms: U256)
    requires Inv(s)
    ensures Inv(Apply(s, ctx, RecordLicenseAttachment(asset, terms)))
    ensures Advances(s, Apply(s, ctx, RecordLicenseAttachment(asset, terms)))
  {
    var o := E.RecordLicenseAttachment(s, asset, terms);
    if o.Ok? {
      InvFrame(s, o.state);
    }
  }

  lemma RecordLicenseMintPreservesInv(s: E.State, ctx: E.Ctx, asset: Address, licensee: Address, token: U256)
    requires Inv(s)
    ensures Inv(Apply(s, ctx, RecordLicenseMint(asset, licensee, token)))
    ensures Advances(s, Apply(s, ctx, RecordLicenseMint(asset, licensee, token)))
  {
    var o := E.RecordLicenseMint(s, asset, licensee, token);
    if o.Ok? {
      InvFrame(s, o.state);
    }
  }

  lemma DistributeIpRoyaltyPreservesInv(s: E.State, ctx: E.Ctx, asset: Address, recipient: Address, amount: U256)
    requires Inv(s)
    ensures Inv(Apply(s, ctx, DistributeIpRoyalty(asset, recipient, amount)))
    ensures Advances(s, Apply(s, ctx, DistributeIpRoyalty(asset, recipient, amount)))
  {
    var o := E.DistributeIpRoyalty(s, ctx, asset, recipient, amount);
    if o.Ok? {
      InvFrame(s, o.state);
    }
  }

  lemma RegisterContentIpPreservesInv(s: E.State, ctx: E.Ctx, id: U256, asset: Address)
    requires Inv(s)
    ensures Inv(Apply(s, ctx, RegisterContentIp(id, asset)))
    ensures Advances(s, Apply(s, ctx, RegisterContentIp(id, asset)))
  {
    var o := E.RegisterContentIp(s, ctx, id, asset);
    if o.Ok? {
      InvFrame(s, o.state);
    }
  }

  /** One transaction keeps the invariant. */
  lemma {:induction false} ApplyPreservesInv(s: E.State, ctx: E.Ctx, tx: Tx)
    requires Inv(s) && ctx.sender != ZERO_ADDRESS
    requires s.nextPlanId < MAX_U256 && s.nextSubscriptionId < MAX_U256
    ensures Inv(Apply(s, ctx, tx))
    ensures Advances(s, Apply(s, ctx, tx))
  {
    match tx
    case Initialize => InitializePreservesInv(s, ctx);
    case CreatePlan(price, interval, hash) => CreatePlanPreservesInv(s, ctx, price, interval, hash);
    case Subscribe(planId) => SubscribePreservesInv(s, ctx, planId);
    case ProcessSubscriptionPayment(id) => ProcessPaymentPreservesInv(s, ctx, id);
    case RecordLicenseAttachment(asset, terms) => RecordLicenseAttachmentPreservesInv(s, ctx, asset, terms);
    case RegisterProvider(name) => RegisterProviderPreservesInv(s, ctx, name);
    case Deposit => DepositPreservesInv(s, ctx);
    case Withdraw(amount) => WithdrawPreservesInv(s, ctx, amount);
    case RegisterPlanIpAsset(planId, asset, uri) => RegisterPlanIpAssetPreservesInv(s, ctx, planId, asset, uri);
    case RecordLicenseMint(asset, licensee, token) => RecordLicenseMintPreservesInv(s, ctx, asset, licensee, token);
    case DistributeIpRoyalty(asset, recipient, amount) => DistributeIpRoyaltyPreservesInv(s, ctx, asset, recipient, amount);
    case RegisterContentIp(id, asset) => RegisterContentIpPreservesInv(s, ctx, id, asset);
  }

  /** A run of fewer than 2^256 - 1 transactions keeps the invariant and
      moves each counter forward by at most one per transaction. */
  lemma {:induction false} RunPreservesInv(s: E.State, txs: seq<(E.Ctx, Tx)>)
    requires Inv(s) && RealSenders(txs)
    requires s.nextPlanId + |txs| < MAX_U256 && s.nextSubscriptionId + |txs| < MAX_U256
    ensures Inv(Run(s, txs))
    ensures s.nextPlanId <= Run(s, txs).nextPlanId <= s.nextPlanId + |txs|
    ensures s.nextSubscriptionId <= Run(s, txs).nextSubscriptionId <= s.nextSubscriptionId + |txs|
    decreases |txs|
  {
    if txs != [] {
      ApplyPreservesInv(s, txs[0].0, txs[0].1);
      var rest := txs[1..];
      assert RealSenders(rest) by {
        forall i | 0 <= i < |rest| ensures rest[i].0.sender != ZERO_ADDRESS {
          assert rest[i] == txs[i + 1];
        }
      }
      RunPreservesInv(Apply(s, txs[0].0, txs[0].1), rest);
    }
  }

  /** In every state reachable from deployment, the marketplace listing is
      exactly the ids 1 .. next_plan_id - 1 (so `get_plans` returns the
      first ten of them). */
  lemma ReachableListing(txs: seq<(E.Ctx, Tx)>)
    requires RealSenders(txs) && |txs| < MAX_U256
    ensures Inv(Run(E.Deployed(), txs))
    ensures Marketplace.Listed(Run(E.Deployed(), txs), 1) == Marketplace.Range(1, Run(E.Deployed(), txs).nextPlanId)
    ensures var s := Run(E.Deployed(), txs);
            Marketplace.Scan(s) == Marketplace.Range(1, Marketplace.Min(s.nextPlanId, Marketplace.MAX_LISTED + 1))
  {
    DeployedInv();
    RunPreservesInv(E.Deployed(), txs);
    Marketplace.ListedDenseTable(Run(E.Deployed(), txs), 1);
    Marketplace.ScanDenseTable(Run(E.Deployed(), txs));
  }

  // ---------------------------------------------------------------------
  // The listing for the contract as written

  /** One transaction of the contract as written: `initialize` is the
      original one, which may move the counters back to 1. */
  function ApplyAsWritten(s: E.State, ctx: E.Ctx, tx: Tx): (s': E.State)
  {
    if tx.Initialize? && ctx.value == 0 then E.Commit(s, E.Initialize(s, ctx)) else Apply(s, ctx, tx)
  }

  function RunAsWritten(s: E.State, txs: seq<(E.Ctx, Tx)>): (s': E.State)
    decreases |txs|
  {
    if txs == [] then s else RunAsWritten(ApplyAsWritten(s, txs[0].0, txs[0].1), txs[1..])
  }

  /** Every id in [1, next_plan_id) holds a plan with a provider, a price
      and an interval. Unlike `PlanTableInv` it does not ask used ids to lie
      below the counter, so a rewound counter does not break it. */
  ghost predicate DensePlans(s: E.State)
  {
    forall id: U256 :: 1 <= id < s.nextPlanId ==>
      E.PlanAt(s, id).provider != ZERO_ADDRESS && E.PlanAt(s, id).price != 0 && E.PlanAt(s, id).interval != 0
  }

  /** The plan table and `next_plan_id` are the same in both states. */
  ghost predicate SamePlans(s: E.State, s': E.State)
  {
    s'.nextPlanId == s.nextPlanId && forall id: U256 :: E.PlanAt(s', id) == E.PlanAt(s, id)
  }

  /** The transactions that cannot write a plan or `next_plan_id`: all but
      `create_plan` and an `initialize` that the router lets through. */
  predicate WritesNoPlan(ctx: E.Ctx, tx: Tx)
  {
    !tx.CreatePlan? && !(tx.Initialize? && ctx.value == 0)
  }

  /** A transaction that writes no plan leaves the plan table and
      `next_plan_id` alone. */
  lemma PlansUntouched(s: E.State, ctx: E.Ctx, tx: Tx)
    requires WritesNoPlan(ctx, tx)
    ensures SamePlans(s, Apply(s, ctx, tx))
  {
    if tx.RegisterProvider? || tx.Subscribe? || tx.ProcessSubscriptionPayment? || tx.Deposit? {
      PlansUntouchedA(s, ctx, tx);
    } else if tx.Withdraw? || tx.RegisterPlanIpAsset? || tx.RecordLicenseAttachment? || tx.Initialize? {
      PlansUntouchedB(s, ctx, tx);
    } else {
      PlansUntouchedC(s, ctx, tx);
    }
  }

  // The three cases of `PlansUntouched`, grouped so that each unfolds
  // `Apply` for a few transactions only.

  lemma PlansUntouchedA(s: E.State, ctx: E.Ctx, tx: Tx)
    requires tx.RegisterProvider? || tx.Subscribe? || tx.ProcessSubscriptionPayment? || tx.Deposit?
    ensures SamePlans(s, Apply(s, ctx, tx))
  {
  }

  lemma PlansUntouchedB(s: E.State, ctx: E.Ctx, tx: Tx)
    requires tx.Withdraw? || tx.RegisterPlanIpAsset? || tx.RecordLicenseAttachment? || (tx.Initialize? && ctx.value > 0)
    ensures SamePlans(s, Apply(s, ctx, tx))
  {
  }

  lemma PlansUntouchedC(s: E.State, ctx: E.Ctx, tx: Tx)
    requires tx.RecordLicenseMint? || tx.DistributeIpRoyalty? || tx.RegisterContentIp?
    ensures SamePlans(s, Apply(s, ctx, tx))
  {
  }

  /** `create_plan` from a real account writes the plan at the counter and
      moves it up by one, so [1, next_plan_id) stays filled. */
  lemma CreatePlanKeepsDense(s: E.State, ctx: E.Ctx, price: U256, interval: U256, hash: string)
    requires DensePlans(s) && ctx.sender != ZERO_ADDRESS && s.nextPlanId < MAX_U256
    ensures DensePlans(Apply(s, ctx, CreatePlan(price, interval, hash)))
    ensures Apply(s, ctx, CreatePlan(price, interval, hash)).nextPlanId <= s.nextPlanId + 1
  {
    var o := E.CreatePlan(s, ctx, price, interval, hash);
    if ctx.value == 0 && o.Ok? {
      var s' := o.state;
      forall id: U256 | 1 <= id < s'.nextPlanId
        ensures E.PlanAt(s', id).provider != ZERO_ADDRESS && E.PlanAt(s', id).price != 0 && E.PlanAt(s', id).interval != 0
      {
        if id != o.value {
          assert E.PlanAt(s', id) == E.PlanAt(s, id);
        }
      }
    }
  }

  /** One transaction of the contract as written keeps the plan table
      dense and moves `next_plan_id` up by at most one (the original
      `initialize` may move it down to 1). */
  lemma ApplyAsWrittenKeepsDense(s: E.State, ctx: E.Ctx, tx: Tx)
    requires DensePlans(s) && ctx.sender != ZERO_ADDRESS && s.nextPlanId < MAX_U256
    ensures DensePlans(ApplyAsWritten(s, ctx, tx))
    ensures ApplyAsWritten(s, ctx, tx).nextPlanId <= s.nextPlanId + 1
  {
    if tx.Initialize? && ctx.value == 0 {
    } else if tx.CreatePlan? {
      CreatePlanKeepsDense(s, ctx, tx.price, tx.interval, tx.metadataHash);
    } else {
      PlansUntouched(s, ctx, tx);
    }
  }

  lemma {:induction false} RunAsWrittenKeepsDense(s: E.State, txs: seq<(E.Ctx, Tx)>)
    requires DensePlans(s) && RealSenders(txs) && s.nextPlanId + |txs| < MAX_U256
    ensures DensePlans(RunAsWritten(s, txs))
    ensures RunAsWritten(s, txs).nextPlanId <= s.nextPlanId + |txs|
    decreases |txs|
  {
    if txs != [] {
      ApplyAsWrittenKeepsDense(s, txs[0].0, txs[0].1);
      var rest := txs[1..];
      assert RealSenders(rest) by {
        forall i | 0 <= i < |rest| ensures rest[i].0.sender != ZERO_ADDRESS {
          assert rest[i] == txs[i + 1];
        }
      }
      RunAsWrittenKeepsDense(ApplyAsWritten(s, txs[0].0, txs[0].1), rest);
    }
  }

  /** For the contract as written, in every state reachable from deployment
      the listing is exactly the ids 1 .. next_plan_id - 1, and `get_plans`
      returns the first ten of them. The rewinding `initialize` makes
      `create_plan` overwrite plans but never leaves a gap. */
  lemma ReachableListingAsWritten(txs: seq<(E.Ctx, Tx)>)
    requires RealSenders(txs) && |txs| < MAX_U256
    ensures var s := RunAsWritten(E.Deployed(), txs);
            && Marketplace.Listed(s, 1) == Marketplace.Range(1, s.nextPlanId)
            && Marketplace.Scan(s) == Marketplace.Range(1, Marketplace.Min(s.nextPlanId, Marketplace.MAX_LISTED + 1))
  {
    RunAsWrittenKeepsDense(E.Deployed(), txs);
    var s := RunAsWritten(E.Deployed(), txs);
    Marketplace.ListedDenseTable(s, 1);
    Marketplace.ScanDenseTable(s);
  }

  /** Under the invariant `create_plan` always writes an unused id: no plan
      is ever overwritten. */
  lemma CreatePlanUsesFreshId(s: E.State, ctx: E.Ctx, price: U256, interval: U256, hash: string)
    requires Inv(s)
    ensures E.CreatePlan(s, ctx, price, interval, hash).Ok? ==>
              E.PlanAt(s, E.CreatePlan(s, ctx, price, interval, hash).value).provider == ZERO_ADDRESS
  {
  }

  // ---------------------------------------------------------------------
  // Payments

  /** On a successful subscription the provider is paid the price less the
      protocol fee, and share and fee add up to the price. */
  lemma SubscribeSplitsPrice(s: E.State, ctx: E.Ctx, planId: U256)
    requires Inv(s)
    ensures var o := E.Subscribe(s, ctx, planId);
            var plan := E.PlanAt(s, planId);
            o.Ok? ==>
              && |o.events| == 3
              && o.events[1] == E.PaymentProcessed(ctx.sender, plan.provider, ProviderAmount(plan.price, s.protocolFeePercentage), o.value)
              && o.events[1].amount + ProtocolFee(plan.price, s.protocolFeePercentage) == plan.price
  {
    FeeWithinPrice(E.PlanAt(s, planId).price, s.protocolFeePercentage);
  }

  /** The same split on a renewal, paid to the plan's provider. */
  lemma RenewalSplitsPrice(s: E.State, ctx: E.Ctx, id: U256)
    requires Inv(s)
    ensures var o := E.ProcessSubscriptionPayment(s, ctx, id);
            var sub := E.SubscriptionAt(s, id);
            var plan := E.PlanAt(s, sub.planId);
            o.Ok? ==>
              && |o.events| == 2
              && o.events[0] == E.PaymentProcessed(sub.subscriber, plan.provider, ProviderAmount(plan.price, s.protocolFeePercentage), id)
              && o.events[0].amount + ProtocolFee(plan.price, s.protocolFeePercentage) == plan.price
  {
    var sub := E.SubscriptionAt(s, id);
    FeeWithinPrice(E.PlanAt(s, sub.planId).price, s.protocolFeePercentage);
  }

  // ---------------------------------------------------------------------
  // Balances

  /** A deposit followed by a successful withdrawal of the same amount
      leaves the whole storage exactly as it was. */
  lemma {:induction false} DepositThenWithdraw(s: E.State, ctx: E.Ctx)
    requires E.CanonicalState(s)
    requires ctx.value > 0 && E.GetUserBalance(s, ctx.sender) + ctx.value < TWO_256
    ensures var s1 := E.Commit(s, E.Deposit(s, ctx));
            var o := E.Withdraw(s1, ctx.(value := 0, transferSucceeds := true), ctx.value);
            && o.Ok?
            && E.GetUserBalance(o.state, ctx.sender) == E.GetUserBalance(s, ctx.sender)
            && o.state == s
  {
    var b := E.GetUserBalance(s, ctx.sender);
    var s1 := E.Commit(s, E.Deposit(s, ctx));
    assert s1 == E.SetBalance(s, ctx.sender, b + ctx.value);
    var o := E.Withdraw(s1, ctx.(value := 0, transferSucceeds := true), ctx.value);
    assert o.state == E.SetBalance(s1, ctx.sender, b);
    PutRestores(s.userEscrowBalance, ctx.sender, b + ctx.value, 0);
    assert o.state.userEscrowBalance == s.userEscrowBalance;
    assert o.state == s1.(userEscrowBalance := s.userEscrowBalance);
  }

  /** A failed transfer in `subscribe` restores only the balance: the body
      leaves an active subscription record behind under an id the counter
      does not cover, which only the transaction revert removes. */
  lemma SubscribeRestoreIsPartial(s: E.State, ctx: E.Ctx, planId: U256)
    requires E.PlanAt(s, planId).provider != ZERO_ADDRESS
    requires E.Credited(s, ctx) >= E.PlanAt(s, planId).price
    requires !ctx.transferSucceeds && ctx.sender != ZERO_ADDRESS
    ensures var o := E.Subscribe(s, ctx, planId);
            && o.Err? && o.error == E.InvalidInput
            && E.SubscriptionAt(o.state, s.nextSubscriptionId) == E.Subscription(planId, ctx.sender, ctx.timestamp, true)
            && o.state.nextSubscriptionId == s.nextSubscriptionId
            && E.Commit(s, o) == s
  {
  }

  // ---------------------------------------------------------------------
  // initialize, as written and corrected

  /** A second `initialize` fails once an account has initialised the contract. */
  lemma InitializeOnce(s: E.State, ctx1: E.Ctx, ctx2: E.Ctx)
    requires ctx1.sender != ZERO_ADDRESS
    ensures var o := E.Initialize(E.Commit(s, E.Initialize(s, ctx1)), ctx2);
            o.Err? && o.error == E.InvalidInput
  {
  }

  /** As written, `initialize` after two plans were created rewinds
      `next_plan_id`, and the next `create_plan` overwrites plan 1. */
  lemma InitializeRewindsPlanIds()
    ensures
      var p := E.Ctx(1, 0, 0, true);
      var a := E.Ctx(2, 0, 0, true);
      var s1 := E.Commit(E.Deployed(), E.RegisterProvider(E.Deployed(), p, []));
      var s2 := E.Commit(s1, E.CreatePlan(s1, p, 10, 30, ""));
      var s3 := E.Commit(s2, E.CreatePlan(s2, p, 20, 30, ""));
      var s4 := E.Commit(s3, E.Initialize(s3, a));
      var o := E.CreatePlan(s4, p, 99, 30, "");
      && E.PlanAt(s4, 1) == E.Plan(1, 20, 30)
      && !PlanTableInv(s4)
      && o.Ok? && o.value == 1
      && E.PlanAt(o.state, 1) == E.Plan(1, 99, 30)
  {
    var p := E.Ctx(1, 0, 0, true);
    var a := E.Ctx(2, 0, 0, true);
    var s1 := E.Commit(E.Deployed(), E.RegisterProvider(E.Deployed(), p, []));
    assert E.IsProviderRegistered(s1, 1);
    var s2 := E.Commit(s1, E.CreatePlan(s1, p, 10, 30, ""));
    assert s2.nextPlanId == 1 && E.IsProviderRegistered(s2, 1);
    var s3 := E.Commit(s2, E.CreatePlan(s2, p, 20, 30, ""));
    assert s3.nextPlanId == 2 && E.PlanAt(s3, 1) == E.Plan(1, 20, 30);
    var s4 := E.Commit(s3, E.Initialize(s3, a));
    assert s4.nextPlanId == 1 && E.PlanAt(s4, 1) == E.Plan(1, 20, 30);
    assert E.IsProviderRegistered(s4, 1);
  }

  /** With the corrected `initialize` the same sequence keeps plan 1 and the
      next plan gets the fresh id 2. */
  lemma InitializeNoRewindKeepsPlanIds()
    ensures
      var p := E.Ctx(1, 0, 0, true);
      var a := E.Ctx(2, 0, 0, true);
      var s1 := E.Commit(E.Deployed(), E.RegisterProvider(E.Deployed(), p, []));
      var s2 := E.Commit(s1, E.CreatePlan(s1, p, 10, 30, ""));
      var s3 := E.Commit(s2, E.CreatePlan(s2, p, 20, 30, ""));
      var s4 := E.Commit(s3, InitializeNoRewind(s3, a));
      var o := E.CreatePlan(s4, p, 99, 30, "");
      && o.Ok? && o.value == 2
      && E.PlanAt(o.state, 1) == E.Plan(1, 20, 30)
  {
    var p := E.Ctx(1, 0, 0, true);
    var a := E.Ctx(2, 0, 0, true);
    var s1 := E.Commit(E.Deployed(), E.RegisterProvider(E.Deployed(), p, []));
    assert E.IsProviderRegistered(s1, 1);
    var s2 := E.Commit(s1, E.CreatePlan(s1, p, 10, 30, ""));
    assert s2.nextPlanId == 1 && E.IsProviderRegistered(s2, 1);
    var s3 := E.Commit(s2, E.CreatePlan(s2, p, 20, 30, ""));
    assert s3.nextPlanId == 2 && E.PlanAt(s3, 1) == E.Plan(1, 20, 30);
    var s4 := E.Commit(s3, InitializeNoRewind(s3, a));
    assert s4.nextPlanId == 2 && E.PlanAt(s4, 1) == E.Plan(1, 20, 30);
    assert E.IsProviderRegistered(s4, 1);
  }
}

=== FILE: marketplace.dfy ===
/** The marketplace view `get_plans`: a bounded scan of the plan ids from 1
    upwards that collects at most ten ids whose plan has a provider. */
module Marketplace {
  import opened Word
  import opened Escrow

  /** At most this many plan ids are returned by one scan. */
  const MAX_LISTED: nat := 10

  function Min(a: nat, b: nat): nat
  {
    if a <= b then a else b
  }

  /** Reference definition: every id in [from, next_plan_id) whose plan has
      a provider, in increasing order, without the bound of ten. */
  function Listed(s: State, from: nat): (ids: seq<nat>)
    decreases s.nextPlanId - from
  {
    if from >= s.nextPlanId then []
    else (if PlanAt(s, from).provider != ZERO_ADDRESS then [from] else []) + Listed(s, from + 1)
  }

  /** The ids `lo, lo + 1, ..., hi - 1`. */
  function Range(lo: nat, hi: nat): (r: seq<nat>)
    ensures |r| == if lo <= hi then hi - lo else 0
    ensures forall i :: 0 <= i < |r| ==> r[i] == lo + i
    decreases hi - lo
  {
    if lo >= hi then [] else [lo] + Range(lo + 1, hi)
  }

  /** `Listed` is strictly increasing, holds only live plan ids in range,
      and misses none of them. */
  lemma {:induction false} ListedFacts(s: State, from: nat)
    ensures forall i, j :: 0 <= i < j < |Listed(s, from)| ==> Listed(s, from)[i] < Listed(s, from)[j]
    ensures forall i :: 0 <= i < |Listed(s, from)| ==>
              from <= Listed(s, from)[i] < s.nextPlanId && PlanAt(s, Listed(s, from)[i]).provider != ZERO_ADDRESS
    ensures forall id: U256 :: from <= id < s.nextPlanId && PlanAt(s, id).provider != ZERO_ADDRESS ==>
              id in Listed(s, from)
    decreases s.nextPlanId - from
  {
    if from < s.nextPlanId {
      ListedFacts(s, from + 1);
    }
  }

  /** When every id in [1, next_plan_id) holds a plan, the scan from `from`
      lists exactly the ids from `from` up to the counter. */
  lemma {:induction false} ListedDenseTable(s: State, from: nat)
    requires 1 <= from
    requires forall id: U256 :: 1 <= id < s.nextPlanId ==> PlanAt(s, id).provider != ZERO_ADDRESS
    ensures Listed(s, from) == Range(from, s.nextPlanId)
    decreases s.nextPlanId - from
  {
    if from < s.nextPlanId {
      assert PlanAt(s, from as U256).provider != ZERO_ADDRESS;
      ListedDenseTable(s, from + 1);
    }
  }

  /** Reference definition of `get_plans`: the reference listing cut off
      after `MAX_LISTED` ids. */
  function Scan(s: State): (ids: seq<nat>)
  {
    Listed(s, 1)[..Min(MAX_LISTED, |Listed(s, 1)|)]
  }

  /** What `get_plans` returns: increasing live plan ids in range. */
  lemma ScanFacts(s: State)
    ensures |Scan(s)| == Min(MAX_LISTED, |Listed(s, 1)|)
    ensures forall i, j :: 0 <= i < j < |Scan(s)| ==> Scan(s)[i] < Scan(s)[j]
    ensures forall i :: 0 <= i < |Scan(s)| ==>
              1 <= Scan(s)[i] < s.nextPlanId && PlanAt(s, Scan(s)[i]).provider != ZERO_ADDRESS
  {
    var l := Listed(s, 1);
    ListedFacts(s, 1);
    assert forall i :: 0 <= i < |Scan(s)| ==> Scan(s)[i] == l[i];
  }

  /** On a dense plan table `get_plans` returns exactly the ids from 1 up to
      the counter, or up to 10. */
  lemma ScanDenseTable(s: State)
    requires forall id: U256 :: 1 <= id < s.nextPlanId ==> PlanAt(s, id).provider != ZERO_ADDRESS
    ensures Scan(s) == Range(1, Min(s.nextPlanId, MAX_LISTED + 1))
  {
    ListedDenseTable(s, 1);
    var r := Range(1, Min(s.nextPlanId, MAX_LISTED + 1));
    assert |Scan(s)| == |r|;
    assert forall i :: 0 <= i < |r| ==> Scan(s)[i] == r[i];
  }

  /** When the scan loop stops, the ids it collected are the reference scan. */
  lemma ScanStops(s: State, ids: seq<nat>, planId: nat)
    requires |ids| <= MAX_LISTED
    requires Listed(s, 1) == ids + Listed(s, planId)
    requires planId >= s.nextPlanId || |ids| == MAX_LISTED
    ensures ids == Scan(s)
  {
    if planId >= s.nextPlanId {
      assert Listed(s, planId) == [];
    }
    assert ids == Listed(s, 1)[..|ids|];
  }

  method GetPlans(s: State) returns (ids: seq<U256>)
    ensures ids == Scan(s)
    ensures |ids| == Min(MAX_LISTED, |Listed(s, 1)|)
    ensures forall i, j :: 0 <= i < j < |ids| ==> ids[i] < ids[j]
    ensures forall i :: 0 <= i < |ids| ==> 1 <= ids[i] < s.nextPlanId && PlanAt(s, ids[i]).provider != ZERO_ADDRESS
    ensures (forall id: U256 :: 1 <= id < s.nextPlanId ==> PlanAt(s, id).provider != ZERO_ADDRESS) ==>
              ids == Range(1, Min(s.nextPlanId, MAX_LISTED + 1))
  {
    var maxPlans: nat := s.nextPlanId;
    ids := [];
    var planId: nat := 1;
    while planId < maxPlans && |ids| < MAX_LISTED
      invariant 1 <= planId
      invariant |ids| <= MAX_LISTED
      invariant Listed(s, 1) == ids + Listed(s, planId)
      decreases maxPlans - planId
    {
      ghost var rest := Listed(s, planId + 1);
      if PlanAt(s, planId as U256).provider != ZERO_ADDRESS {
        assert Listed(s, planId) == [planId] + rest;
        assert ids + ([planId] + rest) == (ids + [planId]) + rest;
        ids := ids + [planId as U256];
      } else {
        assert Listed(s, planId) == rest;
      }
      planId := planId + 1;
    }
    ScanStops(s, ids, planId);
    ScanFacts(s);
    if forall id: U256 :: 1 <= id < s.nextPlanId ==> PlanAt(s, id).provider != ZERO_ADDRESS {
      ScanDenseTable(s);
    }
  }
}

=== FILE: storage.dfy ===
/** Contract storage mappings. An EVM storage slot that was never written
    reads as the zero value of its type, so a mapping is modelled as a Dafny
    map together with that default. Writing the default removes the key: a
    map that never stores its default is "canonical", and two canonical maps
    are equal exactly when they read the same at every key. */
module Storage {

  /** Reads slot `k`; an unwritten slot reads as the default `d`. */
  function Get<K, V>(m: map<K, V>, k: K, d: V): V
  {
    if k in m then m[k] else d
  }

  /** True iff no key of `m` holds the default value. */
  ghost predicate Canonical<K, V>(m: map<K, V>, d: V)
  {
    forall k :: k in m ==> m[k] != d
  }

  /** Writes `v` into slot `k`. */
  function Put<K(!new), V(==)>(m: map<K, V>, k: K, v: V, d: V): (m': map<K, V>)
    ensures Get(m', k, d) == v
    ensures forall j :: j != k ==> Get(m', j, d) == Get(m, j, d)
    ensures Canonical(m, d) ==> Canonical(m', d)
  {
    if v == d then m - {k} else m[k := v]
  }

  /** Canonical maps are determined by what they read. */
  lemma {:induction false} SameReadsSameMap<K(!new), V>(m1: map<K, V>, m2: map<K, V>, d: V)
    requires Canonical(m1, d) && Canonical(m2, d)
    requires forall k :: Get(m1, k, d) == Get(m2, k, d)
    ensures m1 == m2
  {
    forall k | k in m1
      ensures k in m2 && m2[k] == m1[k]
    {
      assert Get(m1, k, d) == Get(m2, k, d);
    }
    forall k | k in m2
      ensures k in m1
    {
      assert Get(m1, k, d) == Get(m2, k, d);
    }
  }

  /** Writing a slot and then writing its old value back leaves the mapping
      exactly as it was: the shape of the contract's "restore" paths. */
  lemma {:induction false} PutRestores<K(!new), V>(m: map<K, V>, k: K, v: V, d: V)
    requires Canonical(m, d)
    ensures Put(Put(m, k, v, d), k, Get(m, k, d), d) == m
  {
    var m' := Put(Put(m, k, v, d), k, Get(m, k, d), d);
    SameReadsSameMap(m', m, d);
  }
}

=== FILE: story_hooks.dfy ===
/** The client-side workflow state of the Story Protocol hooks. Each hook
    is a small state machine: a busy flag, an error slot and, for royalties,
    the displayed royalty figures. The protocol service behind a hook is an
    oracle: an action is given the way the awaited service call settled
    (a value, `null`, or a thrown value) and yields the state visible while
    the call is pending, the state once it settles, and what it returns. */
module StoryHooks {
  import opened Decimal

  datatype Option<T> = None | Some(value: T)

  /** A caught value: an `Error` carrying a message, or anything else. */
  datatype Thrown = ErrorWithMessage(message: string) | NonError

  /** How an awaited service call settled. */
  datatype Settled<T> = Resolved(value: T) | Threw(thrown: Thrown)

  /** The message a hook stores for a caught value. */
  function ErrorMessage(t: Thrown): string
  {
    match t
    case ErrorWithMessage(m) => m
    case NonError => "Unknown error"
  }

  /** The observable course of one action: the hook state while the service
      call is pending (`None` when the action returns without calling the
      service), the hook state after the action, and its return value
      (`None` for `null` or no value). */
  datatype Invocation<S, T> = Invocation(pending: Option<S>, final: S, returned: Option<T>)

  /** JavaScript falsiness of an optional string: missing or empty. */
  predicate Missing(s: Option<string>)
  {
    s.None? || s.value == ""
  }

  // ---------------------------------------------------------------------
  // useStoryProtocol

  datatype Session = Session(isInitialized: bool, isInitializing: bool)

  const InitialSession := Session(false, false)

  /** `initialize`: starts the client once a wallet client and an address
      are present, unless it is already initialised or initialising. The
      service answers whether the client was created. */
  function Initialize(st: Session, hasWalletClient: bool, address: Option<string>,
                      answer: Settled<bool>): (r: Invocation<Session, ()>)
    ensures r.returned.None?
    ensures r.pending.None? <==>
              !hasWalletClient || Missing(address) || st.isInitialized || st.isInitializing
    ensures r.pending.None? ==> r.final == st
    ensures r.pending.Some? ==>
      && r.pending.value == Session(false, true)
      && !r.final.isInitializing
      && (r.final.isInitialized <==> answer == Resolved(true))
  {
    if !hasWalletClient || Missing(address) || st.isInitialized || st.isInitializing then
      Invocation(None, st, None)
    else
      var during := st.(isInitializing := true);
      var success := match answer
        case Resolved(ok) => ok
        case Threw(_) => false;
      Invocation(Some(during), Session(success, false), None)
  }

  /** Once initialised, `initialize` does nothing, whatever wallet client
      and address later calls see (`isInitialized` is never reset); while it
      is not busy the session never stays in the initialising state. */
  lemma {:induction false} InitializeSettles(st: Session, wallet: bool, address: Option<string>,
                                             first: Settled<bool>)
    requires !st.isInitializing
    ensures !Initialize(st, wallet, address, first).final.isInitializing
    ensures first == Resolved(true) && wallet && !Missing(address) ==>
              var s1 := Initialize(st, wallet, address, first).final;
              && s1.isInitialized
              && forall w: bool, a: Option<string>, second: Settled<bool> ::
                   Initialize(s1, w, a, second) == Invocation(None, s1, None)
  {
    var r := Initialize(st, wallet, address, first);
    if first == Resolved(true) && wallet && !Missing(address) {
      assert r.final.isInitialized;
    }
  }

  /** The first `initialize` of a fresh session with a wallet client and
      an address starts the client, and the session ends initialised
      exactly when the service answered true. */
  lemma InitializeFromStart(hasWalletClient: bool, address: Option<string>, answer: Settled<bool>)
    requires hasWalletClient && !Missing(address)
    ensures var r := Initialize(InitialSession, hasWalletClient, address, answer);
            && r.pending == Some(Session(false, true))
            && r.final == Session(answer == Resolved(true), false)
  {
  }

  // ---------------------------------------------------------------------
  // Actions with a busy flag and an error slot

  datatype ActionState = ActionState(busy: bool, error: Option<string>)

  const Idle := ActionState(false, None)

  /** The shape shared by `registerPlan`, `attachLicense`, `mintLicense` and
      `registerDerivative`: set busy and clear the error, await the service,
      turn a `null` answer into an `Error(failure)`, store the message of
      whatever was caught, and clear busy on every exit. */
  function RunAction<T>(st: ActionState, answer: Settled<Option<T>>, failure: string): (r: Invocation<ActionState, T>)
    ensures r.pending == Some(ActionState(true, None))
    ensures !r.final.busy
    ensures r.returned == (if answer.Resolved? then answer.value else None)
    ensures r.final.error.None? <==> r.returned.Some?
    ensures answer == Resolved(None) ==> r.final.error == Some(failure)
    ensures answer.Threw? ==> r.final.error == Some(ErrorMessage(answer.thrown))
  {
    var during := ActionState(true, None);
    match answer
    case Resolved(Some(v)) => Invocation(Some(during), ActionState(false, None), Some(v))
    case Resolved(None) => Invocation(Some(during), ActionState(false, Some(failure)), None)
    case Threw(t) => Invocation(Some(during), ActionState(false, Some(ErrorMessage(t))), None)
  }

  datatype Registration = Registration(ipId: string, tokenId: nat, txHash: string)
  datatype Attachment = Attachment(licenseTermsId: nat, txHash: string)
  datatype Minting = Minting(licenseTokenIds: seq<nat>, txHash: string)
  datatype Derivation = Derivation(txHash: string)

  const REGISTER_FAILED := "Failed to register IP asset"
  const ATTACH_FAILED := "Failed to attach license terms"
  const MINT_FAILED := "Failed to mint license"
  const DERIVATIVE_FAILED := "Failed to register derivative"

  /** `useIPRegistration.registerPlan`. */
  function RegisterPlan(st: ActionState, answer: Settled<Option<Registration>>): (r: Invocation<ActionState, Registration>)
    ensures r.pending == Some(ActionState(true, None)) && !r.final.busy
    ensures r.returned == (if answer.Resolved? then answer.value else None)
    ensures answer == Resolved(None) ==> r.final.error == Some(REGISTER_FAILED)
    ensures answer.Threw? ==> r.final.error == Some(ErrorMessage(answer.thrown))
    ensures r.returned.Some? ==> r.final.error.None?
  {
    RunAction(st, answer, REGISTER_FAILED)
  }

  /** `useIPLicense.attachLicense`. */
  function AttachLicense(st: ActionState, answer: Settled<Option<Attachment>>): (r: Invocation<ActionState, Attachment>)
    ensures r.pending == Some(ActionState(true, None)) && !r.final.busy
    ensures r.returned == (if answer.Resolved? then answer.value else None)
    ensures answer == Resolved(None) ==> r.final.error == Some(ATTACH_FAILED)
    ensures answer.Threw? ==> r.final.error == Some(ErrorMessage(answer.thrown))
    ensures r.returned.Some? ==> r.final.error.None?
  {
    RunAction(st, answer, ATTACH_FAILED)
  }

  /** `useIPLicense.mintLicense`. */
  function MintLicense(st: ActionState, answer: Settled<Option<Minting>>): (r: Invocation<ActionState, Minting>)
    ensures r.pending == Some(ActionState(true, None)) && !r.final.busy
    ensures r.returned == (if answer.Resolved? then answer.value else None)
    ensures answer == Resolved(None) ==> r.final.error == Some(MINT_FAILED)
    ensures answer.Threw? ==> r.final.error == Some(ErrorMessage(answer.thrown))
    ensures r.returned.Some? ==> r.final.error.None?
  {
    RunAction(st, answer, MINT_FAILED)
  }

  /** `useIPDerivatives.registerDerivative`. */
  function RegisterDerivative(st: ActionState, answer: Settled<Option<Derivation>>): (r: Invocation<ActionState, Derivation>)
    ensures r.pending == Some(ActionState(true, None)) && !r.final.busy
    ensures r.returned == (if answer.Resolved? then answer.value else None)
    ensures answer == Resolved(None) ==> r.final.error == Some(DERIVATIVE_FAILED)
    ensures answer.Threw? ==> r.final.error == Some(ErrorMessage(answer.thrown))
    ensures r.returned.Some? ==> r.final.error.None?
  {
    RunAction(st, answer, DERIVATIVE_FAILED)
  }

  /** The outcome of an action depends only on the answer, never on the
      state it started from: the previous error never leaks into the next. */
  lemma ActionForgetsPreviousError<T>(st1: ActionState, st2: ActionState, answer: Settled<Option<T>>, failure: string)
    ensures RunAction(st1, answer, failure) == RunAction(st2, answer, failure)
    ensures RunAction(st1, answer, failure).returned.Some? ==> RunAction(st1, answer, failure).final == Idle
  {
  }

  // ---------------------------------------------------------------------
  // useIPRoyalties

  datatype RoyaltyInfo = RoyaltyInfo(totalEarned: string, claimable: string, claimed: string)

  datatype RoyaltyState = RoyaltyState(royalties: RoyaltyInfo, isCollecting: bool, error: Option<string>)

  /** What the hook holds before any collection. */
  const InitialRoyalties := RoyaltyState(RoyaltyInfo("0", "0", "0"), false, None)

  datatype Collection = Collection(txHash: string, amountsClaimed: seq<nat>)

  const COLLECT_FAILED := "Failed to collect royalties"

  /** The three figures are canonical numerals. */
  predicate Numerals(r: RoyaltyInfo)
  {
    IsNumeral(r.totalEarned) && IsNumeral(r.claimable) && IsNumeral(r.claimed)
  }

  /** The answer a successful claim carries names at least one amount. */
  predicate WellFormedAnswer(answer: Settled<Option<Collection>>)
  {
    answer.Resolved? && answer.value.Some? ==> |answer.value.value.amountsClaimed| > 0
  }

  /** `collectRoyalties`: without an ipId nothing happens; otherwise set
      busy, clear the error and await the claim. A successful claim adds its
      first amount to `claimed` and zeroes `claimable`, leaving `totalEarned`
      alone; a `null` answer or a thrown value leaves the figures alone and
      stores a message. Busy is cleared on every exit. */
  function CollectRoyalties(st: RoyaltyState, ipId: Option<string>, answer: Settled<Option<Collection>>): (r: Invocation<RoyaltyState, Collection>)
    requires IsDigits(st.royalties.claimed)
    requires WellFormedAnswer(answer)
    ensures Missing(ipId) ==> r == Invocation(None, st, None)
    ensures !Missing(ipId) ==>
      && r.pending == Some(st.(isCollecting := true, error := None))
      && !r.final.isCollecting
      && r.returned == (if answer.Resolved? then answer.value else None)
      && r.final.royalties.totalEarned == st.royalties.totalEarned
    ensures !Missing(ipId) && r.returned.Some? ==>
      && r.final.error.None?
      && r.final.royalties.claimable == "0"
      && IsNumeral(r.final.royalties.claimed)
      && ParseDigits(r.final.royalties.claimed) == ParseDigits(st.royalties.claimed) + r.returned.value.amountsClaimed[0]
    ensures !Missing(ipId) && r.returned.None? ==>
      && r.final.royalties == st.royalties
      && r.final.error == Some(if answer.Threw? then ErrorMessage(answer.thrown) else COLLECT_FAILED)
  {
    if Missing(ipId) then Invocation(None, st, None)
    else
      var during := st.(isCollecting := true, error := None);
      match answer
      case Resolved(Some(c)) =>
        var claimed := ToDecimal(ParseDigits(st.royalties.claimed) + c.amountsClaimed[0]);
        ParseToDecimal(ParseDigits(st.royalties.claimed) + c.amountsClaimed[0]);
        Invocation(Some(during),
                   RoyaltyState(st.royalties.(claimed := claimed, claimable := "0"), false, None),
                   Some(c))
      case Resolved(None) =>
        Invocation(Some(during), during.(isCollecting := false, error := Some(COLLECT_FAILED)), None)
      case Threw(t) =>
        Invocation(Some(during), during.(isCollecting := false, error := Some(ErrorMessage(t))), None)
  }

  /** The figures stay canonical numerals through every collection. */
  lemma CollectKeepsNumerals(st: RoyaltyState, ipId: Option<string>, answer: Settled<Option<Collection>>)
    requires Numerals(st.royalties) && WellFormedAnswer(answer)
    ensures Numerals(CollectRoyalties(st, ipId, answer).final.royalties)
  {
  }

  /** Collecting 5 from the initial state shows claimed "5", claimable "0". */
  lemma CollectFromInitial()
    ensures var r := CollectRoyalties(InitialRoyalties, Some("0x1"), Resolved(Some(Collection("0x0", [5]))));
            && r.final.royalties == RoyaltyInfo("0", "0", "5")
            && !r.final.isCollecting && r.final.error == None
  {
    assert ParseDigits("0") == 0;
    assert ToDecimal(5) == "5";
  }

  /** The state after a series of `collectRoyalties` calls for one ipId. */
  function CollectAll(st: RoyaltyState, ipId: Option<string>, answers: seq<Settled<Option<Collection>>>): (st': RoyaltyState)
    requires IsDigits(st.royalties.claimed)
    requires forall i :: 0 <= i < |answers| ==> WellFormedAnswer(answers[i])
    decreases |answers|
  {
    if answers == [] then st
    else CollectAll(CollectRoyalties(st, ipId, answers[0]).final, ipId, answers[1..])
  }

  /** The amount a call contributes to `claimed`: its first amount when it succeeds. */
  function ClaimedBy(answer: Settled<Option<Collection>>): (amount: nat)
    requires WellFormedAnswer(answer)
  {
    if answer.Resolved? && answer.value.Some? then answer.value.value.amountsClaimed[0] else 0
  }

  function TotalClaimedBy(answers: seq<Settled<Option<Collection>>>): (total: nat)
    requires forall i :: 0 <= i < |answers| ==> WellFormedAnswer(answers[i])
    decreases |answers|
  {
    if answers == [] then 0 else ClaimedBy(answers[0]) + TotalClaimedBy(answers[1..])
  }

  /** Over any series of calls with an ipId, `claimed` grows by exactly the
      first amounts of the successful claims, `totalEarned` never changes,
      and the hook ends idle. */
  lemma {:induction false} CollectAllAccumulates(st: RoyaltyState, ipId: Option<string>,
                                                 answers: seq<Settled<Option<Collection>>>)
    requires IsDigits(st.royalties.claimed) && !st.isCollecting && !Missing(ipId)
    requires forall i :: 0 <= i < |answers| ==> WellFormedAnswer(answers[i])
    ensures IsDigits(CollectAll(st, ipId, answers).royalties.claimed)
    ensures ParseDigits(CollectAll(st, ipId, answers).royalties.claimed)
              == ParseDigits(st.royalties.claimed) + TotalClaimedBy(answers)
    ensures CollectAll(st, ipId, answers).royalties.totalEarned == st.royalties.totalEarned
    ensures !CollectAll(st, ipId, answers).isCollecting
    decreases |answers|
  {
    if answers != [] {
      var next := CollectRoyalties(st, ipId, answers[0]).final;
      var rest := answers[1..];
      assert forall i :: 0 <= i < |rest| ==> WellFormedAnswer(rest[i]) by {
        forall i | 0 <= i < |rest| ensures WellFormedAnswer(rest[i]) {
          assert rest[i] == answers[i + 1];
        }
      }
      CollectAllAccumulates(next, ipId, rest);
    }
  }
}

=== FILE: word.dfy ===
/** Machine words of the contract: 256-bit unsigned integers, 160-bit
    addresses and 64-bit block timestamps, and the integer fee arithmetic of
    the subscription escrow. U256 `+`, `-` and `*` wrap modulo 2^256. */
module Word {

  const TWO_64: nat := 0x1_0000_0000_0000_0000
  const TWO_160: nat := 0x1_0000_0000_0000_0000_0000_0000_0000_0000_0000
  const TWO_256: nat := 0x1_0000_0000_0000_0000_0000_0000_0000_0000_0000_0000_0000_0000_0000_0000_0000

  type U256 = x: nat | x < TWO_256
  type U64 = x: nat | x < TWO_64
  type Address = a: nat | a < TWO_160

  const ZERO_ADDRESS: Address := 0

  /** The largest U256 value. */
  const MAX_U256: U256 := TWO_256 - 1

  function Add(a: U256, b: U256): (r: U256)
    ensures a + b < TWO_256 ==> r == a + b
    ensures a + b >= TWO_256 ==> r == a + b - TWO_256
  {
    (a + b) % TWO_256
  }

  function Sub(a: U256, b: U256): (r: U256)
    ensures b <= a ==> r == a - b
    ensures a < b ==> r == a - b + TWO_256
  {
    (a - b) % TWO_256
  }

  function Mul(a: U256, b: U256): (r: U256)
    ensures a * b < TWO_256 ==> r == a * b
    ensures r <= a * b
  {
    (a * b) % TWO_256
  }

  /** Basis-point denominator of the protocol fee. */
  const BPS_DENOMINATOR: nat := 10000

  /** The fee `initialize` installs: 250 basis points, i.e. 2.5%. */
  const PROTOCOL_FEE_BPS: U256 := 250

  /** `price * fee_bps / 10000` with the product taken in U256. */
  function ProtocolFee(price: U256, feeBps: U256): (fee: U256)
  {
    Mul(price, feeBps) / BPS_DENOMINATOR
  }

  /** What the provider receives: `price - fee` in U256. */
  function ProviderAmount(price: U256, feeBps: U256): (share: U256)
  {
    Sub(price, ProtocolFee(price, feeBps))
  }

  lemma MulMonotone(a: nat, b: nat, c: nat)
    requires b <= c
    ensures a * b <= a * c
  {
    assert a * c - a * b == a * (c - b);
  }

  /** For any fee of at most 100%, the fee never exceeds the price, even when
      the product `price * fee_bps` wraps around, so `price - fee` never
      underflows and the provider's share and the fee add up to the price. */
  lemma {:induction false} FeeWithinPrice(price: U256, feeBps: U256)
    requires feeBps <= BPS_DENOMINATOR
    ensures ProtocolFee(price, feeBps) <= price
    ensures ProviderAmount(price, feeBps) + ProtocolFee(price, feeBps) == price
  {
    var product := Mul(price, feeBps);
    var fee := ProtocolFee(price, feeBps);
    assert fee * BPS_DENOMINATOR <= product;
    MulMonotone(price, feeBps, BPS_DENOMINATOR);
    assert product <= price * BPS_DENOMINATOR;
  }

  /** Without wrap-around the fee is the exact floor of `price * bps / 10000`. */
  lemma FeeExact(price: U256, feeBps: U256)
    requires price * feeBps < TWO_256
    ensures ProtocolFee(price, feeBps) == price * feeBps / BPS_DENOMINATOR
  {
  }

  /** The installed fee on a price of 10000 wei is 250 wei; the provider gets 9750. */
  lemma FeeExample()
    ensures ProtocolFee(10000, PROTOCOL_FEE_BPS) == 250
    ensures ProviderAmount(10000, PROTOCOL_FEE_BPS) == 9750
  {
  }
}
